=== FILE: README.md ===
# Monthly roster engine, modelled in Dafny

This project models the scheduling core of a small browser roster tool (`script.js`). For one
month it works out three things:

- which days each employee rests on;
- how each employee's monthly quota of hours is spread over the days they work;
- the shift each worked day becomes: start time, end time and break.

The parts modelled:

- **`HolidayPicker`** reads the free-text holiday field, a comma-separated list of day numbers.
- **`WeekAnalyzer.getWeeks`** cuts the month into weeks at every Monday. A week with six work
  days is *complete*; a work day is a day that is neither a Sunday nor a holiday.
- **`DayOffDistributor.distribute`** decides the rest days:
  - every employee rests on the holidays and Sundays;
  - an employee with fixed rest weekdays also rests on every day with one of those weekdays;
  - the other employees (the *pool*) get random extra rest days, week by week;
  - last, every schedule loses its entries on rest days.
- **`DayOffDistributor.redistributeForEmployee`** moves one of an employee's extra rest days to
  another free weekday of the same complete week.
- **`HourAllocator.allocate`** spreads each employee's quota over their work days in three
  passes:
  - Saturdays first;
  - then a daily minimum;
  - then random top-ups up to a daily maximum.

  It then turns each worked day into a shift that starts on the hour from 9:00 and ends by 20:00.
- **`ScheduleRenderer.formatHours` / `formatBreak`** give the text forms of hours and breaks.

Conventions of the model:

- Hours, breaks and increments are counted in whole **half hours**: `9` stands for 4.5 hours.
- `Math.random` is an oracle `draw: nat -> nat`, read at the positions `t, t + 1, ...` that each
  operation threads through. A uniform pick among `n` things is `draw(t) % n`, so every sequence
  of choices the source can make is a possible run of the model.
- Employees are objects of the class `Roster.Employee`:
  - `restDays` and `schedule` are the fields the engines update in place;
  - `name`, `totalHours` and `fixedRestDays` do not change.
- `DayOffDistributor` and `HourAllocator` are classes holding the month, the weeks, the holidays
  and the employees. Their methods modify the employee objects and nothing else.

What is proved, in outline:

- **Weeks.** `getWeeks` partitions the month: the weeks concatenate back to the days. Only the
  first day of a week can be a Monday, and every week but the first starts on one. Each week's
  work-day count and completeness follow the rule above.
- **`distribute`, fixed and mandatory days:**
  - fixed-weekday employees rest exactly on the mandatory days (holidays and Sundays) and their
    fixed weekdays;
  - every employee keeps all mandatory days.
- **`distribute`, the pool.** Pool employees rest on the mandatory days plus only days that some
  week hands out. Every week then ends *finished*:
  - each pool employee holds at most one of the week's handed-out days;
  - hence no pool employee rests on two neighbouring listed days of a complete week;
  - each handed-out day has at most 2 resting pool employees (1 in an incomplete week);
  - it has exactly that many unless every pool employee already has a day of that week.
- **`distribute`, schedules.** Every schedule is its old schedule without the entries on rest
  days.
- **`redistributeForEmployee`** does one of two things:
  - it changes nothing;
  - it replaces one non-mandatory rest day of a complete week by a free weekday of that week and
    refilters the schedule.

  Such a move keeps the employee's number of rest days and keeps how many of each week's
  handed-out days they hold.
- **`allocate`.** Every schedule is made of well-formed shifts:
  - each starts on the hour from 9:00, and its end is the start plus the hours plus the break,
    no later than 20:00;
  - shifts fall on days of the month that are not rest days, in increasing day order;
  - each is within the tier's daily maximum;
  - Saturdays only carry a Saturday amount;
  - the total never exceeds the quota.

  The hours allocated plus the hours left always add up to the quota. The top-up loop stops by
  its own condition exactly when no day can take another half hour. The passes do their work:
  - a Saturday is left without hours only when less than the maximum was left for it;
  - a work day is left without a shift only when less than the daily minimum remains unscheduled;
  - once the top-up loop has stopped by itself, either the whole quota is scheduled or every
    work day but the Saturdays has a shift of the daily maximum.
- **Text formats.** Holiday lists, hour texts and clock texts read back to what was written.

## Model

| member | source | states |
|---|---|---|
| Text.NatToString | script.js:413 | the decimal digits of a non-negative integer, as `String(n)` writes them for the small values used here: a non-empty run of digits, one digit exactly below 10, no leading zero |
| Text.DigitsValueOfNatToString | script.js:413 | the digits of `String(n)` have the value `n` |
| Text.LeadingDigits | script.js:24 | the longest prefix of digits: a prefix, all digits, followed by a non-digit or the end |
| Text.TrimStart | script.js:23 | the suffix left after dropping leading white space; it does not start with white space |
| Text.TrimEnd | script.js:23 | the prefix left after dropping trailing white space; it does not end with white space |
| Text.ParseInt | script.js:24 | `parseInt(s, 10)` is NaN exactly when no digit follows the white space and the sign; otherwise the value of the digits, as an exact integer |
| Text.Trim | script.js:23 | `s.trim()`: no longer than the input, and neither starting nor ending with white space |
| Text.TrimSlice | script.js:23 | `s.trim()` keeps one contiguous slice of the input, everything between the leading and trailing white-space runs, and drops only white space around it |
| Text.ParseIntOfNatToString | script.js:24 | `parseInt` reads back the decimal rendering of every non-negative integer, trimmed or not |
| Text.SplitOn | script.js:22 | `split(c)` yields at least one piece and no piece holds the separator |
| Text.JoinSplit | script.js:22 | joining the pieces of a split gives back the original text |
| Text.SplitJoin | script.js:22 | splitting a join of separator-free pieces gives back the pieces |
| Holidays.PieceDay | script.js:23-25 | a comma piece is accepted only with a value of at least 1, the value `parseInt` reads from it once trimmed |
| Holidays.PieceDays | script.js:22-25 | the `map` gives one entry per comma piece, each that piece's value or none |
| Holidays.PresentMembers | script.js:26 | a value survives the `null` filter exactly when some entry holds it |
| Holidays.Present | script.js:26 | `filter(day => day !== null)`: every value kept was present in the mapped list |
| Holidays.PositiveParses | script.js:22-26 | every accepted value is at least 1 |
| Holidays.PositiveParsesMembers | script.js:22-26 | a value is in the accepted list exactly when some piece is accepted with that value |
| Holidays.HolidayList | script.js:20-28 | every stored holiday is at least 1, and an empty field gives no holidays |
| Holidays.GetHolidays | script.js:30-32 | the holiday set holds only values of at least 1, is empty for an empty field and is no larger than the list |
| Holidays.HolidayMembership | script.js:20-32 | a day is a holiday exactly when the field is non-empty and one of its comma pieces is accepted with that value |
| Holidays.SingleHolidayList | script.js:20-32 | the text of one positive day number lists exactly that day |
| Holidays.SingleHoliday | script.js:20-32 | a field holding one positive day number gives exactly that holiday |
| Holidays.PieceDayOfNatToString | script.js:23-25 | the decimal text of a positive day number is accepted with that value |
| Holidays.PositiveParsesOfRender | script.js:22-26 | pieces written from positive day numbers are all accepted, in order |
| Holidays.HolidayListRoundTrip | script.js:20-32 | writing positive day numbers comma-separated and reading them back gives the same list and the set of those days |
| Format.FormatHours | script.js:409-414 | the hours text reads back to the hours, and it is "-" exactly for zero; otherwise whole hours without leading zero and ":30" or ":00" |
| Format.FormatHoursUnique | script.js:409-414 | the text `formatHours` writes is the only text that reads back to its hours |
| Format.FormatHoursRoundTrip | script.js:409-414 | both shapes of the hours text read back to the hours they were made from |
| Format.FormatBreak | script.js:416-419 | the break text reads back to the break for 0 and half an hour, and to an hour for any longer break |
| Format.Pad2 | script.js:395 | `padStart(2, '0')` of a number below 100 is two digits with that value |
| Format.StartTimeText | script.js:380 | the start text `H:00` reads back to `H` hours after midnight |
| Format.EndTimeText | script.js:395 | the end text `HH:MM` reads back to the minutes it was made from |
| Weeks.WorkDayCount | script.js:100 | the count of days that are neither holidays nor Sundays is at most the number of days |
| Weeks.GroupAtMondays | script.js:86-97 | the groups concatenate to the days, none is empty, each starts a new Monday, and there are none exactly for an empty month |
| Weeks.GetWeeks | script.js:85-108 | the weeks concatenate to the days, are split at Mondays, count their work days, are complete exactly at six work days, and are none exactly for an empty month |
| Weeks.FlattenAppend | script.js:85-108 | the days of two runs of weeks are the days of the first run followed by those of the second |
| Weeks.WeeksDisjoint | script.js:85-108 | two different weeks of a month share no day |
| Weeks.WeekDistinct | script.js:85-108 | the days of one week are distinct |
| Weeks.WeekInFlatten | script.js:85-108 | every day of a week is a day of the month |
| Weeks.DayInSomeWeek | script.js:85-108 | every day of the month lies in some week |
| Roster.Employee.constructor | script.js:57-69 | an employee is created only with a non-empty name and a positive quota, with its fixed weekdays, rest days and schedule |
| Roster.WithoutRestDays | script.js:225 | the filtered schedule keeps exactly the entries not on a rest day, and is no longer |
| Roster.WithoutRestDaysTwice | script.js:281 | filtering by two rest sets one after the other is filtering by their union |
| Hours.TierFor | script.js:307-317 | the daily minimum is at least 1 hour, and the maximum is 2 hours above it and at most 8 hours |
| Hours.TierMonotone | script.js:307-317 | a larger quota never gets a lower daily minimum or maximum |
| Hours.SaturdayHours | script.js:327-328 | a Saturday draw is the maximum, half an hour less or an hour less |
| Hours.TopUpGuardExact | script.js:348-352 | with half-hour amounts the loop condition holds exactly when some day can accept an increment |
| Hours.TopUpGuard | script.js:348 | the `while` condition: hours remain and some non-Saturday day is below the maximum |
| Hours.EligibleIndices | script.js:349-351 | the eligible indices are exactly the non-Saturday days below the maximum |
| Hours.SaturdayPass | script.js:325-335 | the hours given plus the hours left stay equal to the hours before; Saturdays end with nothing or a Saturday draw, other days untouched; a Saturday left at zero means less than the maximum is left |
| Hours.MinimumPass | script.js:337-346 | the total is kept; each day is unchanged or went from zero to the daily minimum; the maximum and Saturday amounts are kept; a day left at zero means less than the minimum is left |
| Hours.GrantIncrement | script.js:356-359 | the chosen day gets the increment, and the remainder loses it, exactly when both the remainder and the daily maximum allow it; otherwise nothing changes; the total is kept |
| Hours.TopUpPass | script.js:348-361 | the total is kept and the remainder never grows; days only grow, up to the maximum; Saturdays are untouched; the loop condition still holds at the end only when all `fuel` rounds were run |
| Hours.AllocateDailyHours | script.js:304-361 | one amount per work day; allocated plus left equals the quota; every day within the maximum; Saturdays with a Saturday amount; the loop stopped by itself exactly when no day can take more, and then either nothing is left or every non-Saturday day is at the maximum, and otherwise all `fuel` rounds were run; a day left without hours means less than the minimum is left |
| Hours.BreakTime | script.js:369-376 | a break exactly from 4 hours on, an hour exactly from 5 hours on, never more than an hour |
| Hours.MaxStartHour | script.js:378 | `Math.floor(20 - (hours + break))`: the latest whole start hour whose shift still ends by 20:00, and one hour later would not |
| Hours.DeriveShift | script.js:366-397 | the shift keeps its day and hours, starts on the hour between 9:00 and the latest start, and ends after its hours and break, by 20:00 |
| Hours.EndWithinDay | script.js:385-393 | an end no later than 20:00 splits into its hour and minutes without wrapping past midnight and is never clamped |
| Hours.BuildShifts | script.js:365-399 | one shift per day with hours, in day order, with those hours; the shift hours add up to the allocated hours; every shift well formed |
| Hours.WorkedPairsFacts | script.js:365-399 | the (day, hours) pairs are exactly the days with hours, in increasing day order when the days are |
| Hours.WorkDays | script.js:296 | the work days are exactly the days of the month that are not rest days, in increasing order |
| Hours.AllocateFor | script.js:294-399 | the schedule fits the month, the rest days, the tier and the quota, and is empty when every day is a rest day; a work day without a shift means less than the daily minimum is unscheduled; when the top-up loop stopped by itself, the whole quota is scheduled or every non-Saturday work day has a shift of the maximum; when it did not, all `fuel` rounds were run |
| Hours.WorkedDayListed | script.js:365-399 | every day given hours is listed among the worked (day, hours) pairs that become shifts |
| Hours.ShortWhenEmpty | script.js:337-346 | a work day without a shift leaves less than the daily minimum of the quota unscheduled |
| Hours.MaximumEverywhere | script.js:348-361 | with every non-Saturday day at the maximum, every such work day has a shift of the maximum |
| Hours.ShiftsFit | script.js:294-399 | shifts built from allocated hours fit the month, the rest days, the tier and the quota |
| Hours.TopUpRoundAsWritten | script.js:354-360 | a top-up round changes the hours exactly when it changes the remainder |
| Hours.TopUpSpinsOnFraction | script.js:348-361 | with 0.3 hours left and a Monday below the maximum the loop condition holds, and every round leaves the state unchanged |
| Allocation.HourAllocator.constructor | script.js:286-289 | the allocator holds the employees and the month it is given |
| Allocation.HourAllocator.Allocate | script.js:291-405 | every employee's rest days are kept; every schedule fits the month, rest days, tier and quota, and is empty when every day is a rest day; a work day without a shift means less than the daily minimum is unscheduled; for each employee whose top-up loop stopped by itself, the whole quota is scheduled or every non-Saturday work day has a shift of the maximum, and every other employee's loop ran all `fuel` rounds |
| Assignment.AvailableFor | script.js:175-177 | the candidates are exactly the employees not yet given a day and not already resting on the day |
| Assignment.Unassigned | script.js:156-158 | the candidates are exactly the employees not yet given a day |
| Assignment.NoneUnassigned | script.js:211-212 | with no candidate left every employee has a day |
| Assignment.StartTracking | script.js:152-153 | before any assignment all counters are zero and nobody is given a day |
| Assignment.AssignStep | script.js:168-170 | giving a listed day to an employee without one raises that day's count by one and changes no other count |
| Assignment.CountAdd | script.js:168-169 | adding a day to one employee raises that day's resting count by one if they did not rest on it, and no other count |
| Assignment.TrackedWeekOutcome | script.js:146-191 | the counters of a finished week give its outcome: at most one new day per employee, at most the cap on each listed day, the cap unless everyone has a day |
| Assignment.NotYetGiven | script.js:164-166 | an employee not yet given a day rests on no listed day of the week, so the adjacency test cannot reject them |
| Assignment.NoneAvailable | script.js:178 | when nobody is available for a listed day, every employee has been given a day |
| Assignment.WeekOutcomeDone | script.js:144-221 | a week whose days nobody held before ends finished |
| Assignment.OutcomeBounds | script.js:144-221 | a week only adds days it hands out |
| Assignment.WeekDoneStable | script.js:144-221 | a later week, adding only its own days, leaves an earlier finished week finished |
| WeekRest.Pool | script.js:143 | the pool holds exactly the employees without fixed weekdays, each once |
| WeekRest.MandatoryDays | script.js:122-129 | the days everyone rests on: all holidays, every Sunday of the month, and nothing else |
| WeekRest.BlockedWeekdays | script.js:146-151 | `employees.some(emp => emp.fixedRestDays.has(weekday))`: exactly the weekdays some employee has as a fixed rest weekday |
| WeekRest.WeekList | script.js:146-151 | the listed days are exactly the days of the week from Monday to the last weekday that are no holiday and no one's fixed weekday |
| WeekRest.NonSaturday | script.js:208 | the kept days are exactly the listed days that are not Saturdays |
| WeekRest.CompleteWeek | script.js:146-191 | schedules untouched; each pool employee gets at most one listed day; each listed day ends with at most 2 resting pool employees, exactly 2 unless every pool employee has a day |
| WeekRest.FirstRestPass | script.js:155-171 | each listed day gets at most one employee, counters exact; each listed day gets exactly one unless every pool employee already has a day |
| WeekRest.SecondRestPass | script.js:173-191 | each listed day ends with at most 2 and exactly 2 unless everyone has a day, counters exact |
| WeekRest.FillDay | script.js:174-190 | the loop ends with the day at 2 or everyone given a day, other days' counters unchanged |
| WeekRest.GiveDay | script.js:168 | the employee's rest days gain the day; nothing else changes |
| WeekRest.Assign | script.js:168-170 | the chosen employee gains the day and is marked given, counters exact |
| WeekRest.SingleDayPickAsWritten | script.js:204 | the index picked is in range whenever the pool is not empty |
| WeekRest.SingleDayPick | script.js:204-205 | a pool employee is picked exactly when the pool is non-empty, the same one as written |
| WeekRest.EmptyPoolCrash | script.js:199-205 | a week with one listed day and an empty pool reaches the pick, which names no employee |
| WeekRest.IncompleteWeek | script.js:193-219 | schedules untouched; 1 to 4 listed days: each non-Saturday goes to at most one pool employee, to one unless every pool employee has a day, nobody gets two; otherwise nothing changes |
| WeekRest.SingleDayRest | script.js:199-206 | the lone day goes to one pool employee, or to nobody when the pool is empty |
| WeekRest.SpreadRestDays | script.js:207-219 | each non-Saturday goes to a different pool employee while one without a day remains |
| Distributor.AddDaysOn | script.js:122-140 | the result is the base set plus exactly the days with one of the weekdays |
| Distributor.NotMandatory | script.js:122-129 | a day that is neither Sunday nor holiday is not a mandatory rest day |
| Distributor.Enumerate | script.js:237 | the list holds each element of the set exactly once |
| Distributor.Outside | script.js:237 | the kept days are exactly the listed days not excluded |
| Distributor.FreeDays | script.js:259-267 | the free day numbers are exactly those of listed days that are not rest days |
| Distributor.DayOffDistributor.constructor | script.js:113-118 | the distributor holds the employees, weeks, holidays and days it is given |
| Distributor.DayOffDistributor.OptionsOpen | script.js:146-151 | a week hands out only its own days that are neither Sundays nor holidays |
| Distributor.DayOffDistributor.EarlierOptionsOutside | script.js:144-221 | days handed out by earlier weeks lie outside every later week |
| Distributor.DayOffDistributor.OpenFresh | script.js:144-221 | before a week no pool employee rests on any of its open days |
| Distributor.DayOffDistributor.ProcessWeek | script.js:144-221 | one week: schedules untouched, each pool employee gains at most one of its days, each day at most the cap, exactly the cap unless everyone has one |
| Distributor.DayOffDistributor.SeedRestDays | script.js:122-140 | every employee rests exactly on the holidays, the Sundays and the days of their fixed weekdays; schedules untouched |
| Distributor.DayOffDistributor.WeekStep | script.js:144-221 | handing out a week finishes it and keeps all earlier weeks finished |
| Distributor.DayOffDistributor.StepWeek | script.js:144-221 | one turn of the weeks loop: the week is handed out and finished, earlier weeks stay finished, the pool stays within the days handed out so far, schedules are untouched |
| Distributor.DayOffDistributor.WeekFinished | script.js:144-221 | a week's outcome on rest days bounded by earlier weeks finishes that week |
| Distributor.DayOffDistributor.DistributeWeeks | script.js:142-222 | pool employees keep the mandatory days and gain only handed-out days; every week finished; schedules untouched |
| Distributor.DayOffDistributor.FilterSchedules | script.js:224-226 | rest days kept; every schedule becomes its old schedule without the entries on rest days |
| Distributor.DayOffDistributor.AssignRestDays | script.js:121-222 | fixed-weekday employees rest exactly on the mandatory and fixed days; pool employees as in the weeks loop; every week finished |
| Distributor.DayOffDistributor.Distribute | script.js:120-227 | fixed-weekday employees rest exactly on the mandatory and fixed days; pool employees on the mandatory days plus handed-out days; every week finished; every employee keeps the mandatory days; every schedule is its old one without rest-day entries, so none falls on a rest day |
| Distributor.DayOffDistributor.NoNeighbouringRest | script.js:164-166 | after a finished complete week no pool employee rests on two neighbouring listed days |
| Distributor.DayOffDistributor.LastWeek | script.js:240-245 | the last week containing the day, or none when no week contains it |
| Distributor.DayOffDistributor.WeekOf | script.js:252 | `dayToWeek.get(day)`: a week that contains the day, or none exactly when no week contains it |
| Distributor.DayOffDistributor.RecordWeek | script.js:242-244 | every day of the week maps to it; other entries are kept |
| Distributor.DayOffDistributor.DayToWeek | script.js:240-245 | a day is mapped exactly when some week contains it, to that week and its completeness |
| Distributor.DayOffDistributor.Candidates | script.js:259-267 | the available days are exactly the week's Monday-Friday days that are no holiday, not a rest day and no one's fixed weekday |
| Distributor.DayOffDistributor.RedistributeForEmployee | script.js:229-282 | nothing changes, or one non-mandatory rest day of a complete week moves to a candidate day of that week and the schedule is refiltered; no move without extra days; a move whenever every extra day has a candidate |
| Distributor.DayOffDistributor.SwapShape | script.js:277-278 | a move keeps the number of rest days and the mandatory ones, and lands on a fresh, non-mandatory day of the same week |
| Distributor.DayOffDistributor.SwapKeepsWeeks | script.js:229-282 | a move on rest days `distribute` left keeps them mandatory plus handed-out days, and keeps how many of each week's handed-out days the employee holds |
| Distributor.DayOffDistributor.SwapWithinWeek | script.js:252-267 | the moved day and its replacement are both handed out by the moved day's week |
| Distributor.DayOffDistributor.SwapCount | script.js:277-278 | moving a rest day within one week's handed-out days keeps how many of every week's handed-out days the employee holds |
| Distributor.DayOffDistributor.OptionsDisjoint | script.js:144-151 | two different weeks hand out no common day |

## Left out

- `CalendarGenerator`, `EmployeeManager.loadEmployees` (beyond the constructor's acceptance rule), the page, storage, export, statistics and logging are not part of this model. The month is an input constrained by `Calendar.IsMonth`.
- Distributions: `Math.random` is an arbitrary oracle, so the probabilities of the Saturday draw, the increment and the picks are not modelled; every choice is.
- Real-valued hours: quotas, amounts and increments are whole half hours. The source's floating-point quota can be any fraction; that case is only modelled by `Hours.TopUpRoundAsWritten` and `Hours.TopUpSpinsOnFraction`.
- Hours.AllocateDailyHours: the top-up loop runs at most `fuel` rounds, which the source does not bound; the result says whether the loop stopped by its own condition, and when it did not, all `fuel` rounds were run.
- Distributor.Enumerate: `Array.from` lists a set in insertion order; here the order is left open, which only changes which random rest day a draw picks.
- The counters `restAssignments` and `restDaysAssigned` of `distribute` are local sequences handed between the passes rather than arrays.
- The adjacency test of script.js:164-166 and 182-185 is not given a branch of its own: it is computed and proved never to reject (`Assignment.NotYetGiven`).
- Distributor.DayOffDistributor.RedistributeForEmployee: requires an employee without fixed weekdays, as the page's button handler ensures (script.js:848-851). It does not promise to keep another employee's or a day's resting count, since the source does not; a move can take a day below its count.
- Distributor.DayOffDistributor.Distribute: the code's own per-day target of two resting employees (`restAssignments[dayIndex] < 2`, script.js:174) is not always met, even when the pool has two or more employees. Each pool employee gets at most one day per week, so five days need ten pool employees. The model proves what the code guarantees: at most two, and exactly two unless every pool employee already has a day that week.
- Text.ParseInt: the digits are read as an exact, unbounded integer. `parseInt` returns an IEEE double, so a digit run above 2^53 is rounded in the source. For example, "9007199254740993" gives 9007199254740992.
- Holidays.SingleHoliday, Holidays.SingleHolidayList, Holidays.PieceDayOfNatToString, Holidays.PositiveParsesOfRender, Holidays.HolidayListRoundTrip: these hold for exact integers. For day numbers above 2^53 the source rounds, as the Text.ParseInt line says, and two such numbers can even become one set element. No rounded value falls in 1..31, so the roster is unaffected.
- The schedule strings of `allocate` are modelled through their clock values (`Format.ClockMinutes`); `padStart` is only used below 100.

## Findings

| source | as written | input that shows it | evidently intended | confidence | as-written member | corrected member |
|---|---|---|---|---|---|---|
| script.js:204-205 | an incomplete week with one listed non-Saturday picks `Math.floor(Math.random() * employeesToRandomize.length)` and adds to that employee even when the pool is empty | April 2024, every employee with Monday as a fixed weekday: the last week (Mon 29, Tue 30) lists only Tuesday 30 and the pool is empty, so `employeesToRandomize[0]` is undefined | nobody gets the day when the pool is empty | not executed | WeekRest.EmptyPoolCrash | WeekRest.SingleDayPick |
| script.js:348-361 | the top-up loop continues while any hours remain and some non-Saturday day is below the maximum, but a round only commits an increment of 0.5 or 1 | a quota of 2.3 hours on one Monday: 1 hour from the minimum, 1 more from a top-up, then 0.3 hours left with the Monday below 3 hours; every round leaves the state unchanged | the loop stops when no day can accept an increment | not executed | Hours.TopUpSpinsOnFraction | Hours.TopUpGuardExact |

=== FILE: assignment.dfy ===
/** The bookkeeping behind `DayOffDistributor`'s random rest days (script.js:142-221): which
    pool employees already have their extra day in the current week (`restDaysAssigned`), how
    many rest on each day of the week's list (`restAssignments`), and what a finished week
    guarantees. The employees' rest-day sets are followed here as plain values. */
module Assignment {
  import opened Calendar
  import opened Roster

  /** How many of the sets contain `day`: the employees resting on that day. */
  function Count(rests: seq<set<int>>, day: int): (n: nat)
    ensures n <= |rests|
  {
    if rests == [] then 0
    else Count(rests[..|rests| - 1], day) + (if day in rests[|rests| - 1] then 1 else 0)
  }

  /** Giving employee `k` the day `d` adds one to the count of `d` if they were not already
      resting on it, and changes no other count. */
  lemma {:induction false} CountAdd(rests: seq<set<int>>, k: nat, d: int, x: int)
    requires k < |rests|
    ensures Count(rests[k := rests[k] + {d}], x) == Count(rests, x) + (if x == d && d !in rests[k] then 1 else 0)
    decreases |rests|
  {
    var n := |rests| - 1;
    var updated := rests[k := rests[k] + {d}];
    if k < n {
      assert updated[..n] == rests[..n][k := rests[k] + {d}];
      CountAdd(rests[..n], k, d, x);
    } else {
      assert updated[..n] == rests[..n];
    }
  }

  /** Counts only depend on who holds the day. */
  lemma {:induction false} CountSame(a: seq<set<int>>, b: seq<set<int>>, x: int)
    requires |a| == |b|
    requires forall k :: 0 <= k < |a| ==> (x in a[k] <==> x in b[k])
    ensures Count(a, x) == Count(b, x)
    decreases |a|
  {
    if a != [] {
      CountSame(a[..|a| - 1], b[..|b| - 1], x);
    }
  }

  lemma {:induction false} CountNone(rests: seq<set<int>>, x: int)
    requires forall k :: 0 <= k < |rests| ==> x !in rests[k]
    ensures Count(rests, x) == 0
    decreases |rests|
  {
    if rests != [] {
      CountNone(rests[..|rests| - 1], x);
    }
  }

  /** The rest-day sets of the employees, in order. */
  function RestSets(pool: seq<Employee>): (rests: seq<set<int>>)
    reads pool
    ensures |rests| == |pool|
    ensures forall k :: 0 <= k < |pool| ==> rests[k] == pool[k].restDays
  {
    if pool == [] then [] else RestSets(pool[..|pool| - 1]) + [pool[|pool| - 1].restDays]
  }

  /** The indices of the employees not yet given a day (`filter((_, idx) => !restDaysAssigned[idx])`). */
  function Unassigned(given: seq<bool>): (ks: seq<nat>)
    ensures forall k: nat :: k in ks <==> k < |given| && !given[k]
  {
    if given == [] then []
    else
      var n := |given| - 1;
      Unassigned(given[..n]) + (if given[n] then [] else [n])
  }

  /** The employees' rest-day sets are, in order, the values `rests`. */
  predicate Mirrors(pool: seq<Employee>, rests: seq<set<int>>)
    reads pool
  {
    |rests| == |pool| && forall k :: 0 <= k < |pool| ==> pool[k].restDays == rests[k]
  }

  lemma MirrorsRestSets(pool: seq<Employee>, rests: seq<set<int>>)
    requires Mirrors(pool, rests)
    ensures RestSets(pool) == rests
  {
  }

  /** The indices of the employees neither given a day nor resting on `day` (script.js:175-177). */
  function AvailableFor(pool: seq<Employee>, given: seq<bool>, day: int): (ks: seq<nat>)
    reads pool
    requires |given| == |pool|
    ensures forall k: nat :: k in ks <==> k < |pool| && !given[k] && day !in pool[k].restDays
  {
    if pool == [] then []
    else
      var n := |pool| - 1;
      AvailableFor(pool[..n], given[..n], day) + (if !given[n] && day !in pool[n].restDays then [n] else [])
  }

  /** Every employee has been given a day. */
  predicate AllGiven(given: seq<bool>) {
    forall k :: 0 <= k < |given| ==> given[k]
  }

  /** With nobody left without a day, every employee has one (the `availableEmployees` test at
      script.js:211-212, and the one of the first pass at script.js:159). */
  lemma NoneUnassigned(given: seq<bool>)
    requires Unassigned(given) == []
    ensures AllGiven(given)
  {
    forall k | 0 <= k < |given| ensures given[k] {
      assert k !in Unassigned(given);
    }
  }

  /** How many employees are still without a day. */
  function CountFalse(given: seq<bool>): nat {
    if given == [] then 0
    else CountFalse(given[..|given| - 1]) + (if given[|given| - 1] then 0 else 1)
  }

  lemma {:induction false} CountFalseSet(given: seq<bool>, k: nat)
    requires k < |given| && !given[k]
    ensures CountFalse(given[k := true]) + 1 == CountFalse(given)
    decreases |given|
  {
    var n := |given| - 1;
    if k < n {
      assert given[k := true][..n] == given[..n][k := true];
      CountFalseSet(given[..n], k);
    } else {
      assert given[k := true][..n] == given[..n];
    }
  }

  /** No employee rests on any day of the list yet. */
  predicate Fresh(eligible: seq<Day>, rests: seq<set<int>>) {
    forall k, i :: 0 <= k < |rests| && 0 <= i < |eligible| ==> eligible[i].day !in rests[k]
  }

  /** The state of a week in progress: employee `k` has `initial[k]` plus, once given, the
      day `picked[k]` of the list, and `counts[i]` is the number of employees resting on the
      `i`-th day of the list. */
  predicate Tracked(eligible: seq<Day>, initial: seq<set<int>>, rests: seq<set<int>>, picked: seq<int>,
                    counts: seq<nat>, given: seq<bool>)
  {
    |rests| == |initial| && |picked| == |initial| && |given| == |initial| && |counts| == |eligible| &&
    (forall k :: 0 <= k < |rests| ==> rests[k] == if given[k] then initial[k] + {picked[k]} else initial[k]) &&
    (forall k :: 0 <= k < |rests| && given[k] ==> picked[k] in DayNumbers(eligible)) &&
    (forall i :: 0 <= i < |counts| ==> counts[i] == Count(rests, eligible[i].day))
  }

  /** Before any assignment every count is zero. */
  lemma StartTracking(eligible: seq<Day>, initial: seq<set<int>>)
    requires Fresh(eligible, initial)
    ensures Tracked(eligible, initial, initial, seq(|initial|, _ => 0), seq(|eligible|, _ => 0), seq(|initial|, _ => false))
  {
    forall i | 0 <= i < |eligible| ensures Count(initial, eligible[i].day) == 0 {
      CountNone(initial, eligible[i].day);
    }
  }

  /** Giving the `i`-th day of the list to an employee without a day keeps the bookkeeping
      exact: that day's count goes up by one and nothing else changes. */
  lemma AssignStep(eligible: seq<Day>, initial: seq<set<int>>, rests: seq<set<int>>, picked: seq<int>,
                   counts: seq<nat>, given: seq<bool>, k: nat, i: nat)
    requires DistinctDays(eligible) && Fresh(eligible, initial)
    requires Tracked(eligible, initial, rests, picked, counts, given)
    requires k < |given| && !given[k] && i < |eligible|
    ensures Tracked(eligible, initial, rests[k := rests[k] + {eligible[i].day}], picked[k := eligible[i].day],
                    counts[i := counts[i] + 1], given[k := true])
  {
    var d := eligible[i].day;
    var rests' := rests[k := rests[k] + {d}];
    forall j | 0 <= j < |eligible|
      ensures counts[i := counts[i] + 1][j] == Count(rests', eligible[j].day)
    {
      CountAdd(rests, k, d, eligible[j].day);
    }
  }

  /** Once every employee has a day, each of them rests on some day of the list. */
  lemma AllAssigned(eligible: seq<Day>, initial: seq<set<int>>, rests: seq<set<int>>, picked: seq<int>,
                    counts: seq<nat>, given: seq<bool>)
    requires Tracked(eligible, initial, rests, picked, counts, given)
    requires forall k :: 0 <= k < |given| ==> given[k]
    ensures forall k :: 0 <= k < |rests| ==> rests[k] * DayNumbers(eligible) != {}
  {
    forall k | 0 <= k < |rests| ensures picked[k] in rests[k] * DayNumbers(eligible) {
    }
  }

  /** `after` is `before`, or `before` plus one day of `options` it did not hold. */
  predicate AddsAtMostOne(before: set<int>, after: set<int>, options: set<int>) {
    after == before || exists d :: d in options && d !in before && after == before + {d}
  }

  /** Every employee holds at most one day of `options`. */
  predicate AtMostOneEach(rests: seq<set<int>>, options: set<int>) {
    forall k, a, b :: 0 <= k < |rests| && a in rests[k] && b in rests[k] && a in options && b in options ==> a == b
  }

  /** What the tracked state says once the week is over. */
  lemma TrackedOutcome(eligible: seq<Day>, initial: seq<set<int>>, rests: seq<set<int>>, picked: seq<int>,
                       counts: seq<nat>, given: seq<bool>)
    requires Fresh(eligible, initial) && Tracked(eligible, initial, rests, picked, counts, given)
    ensures forall k :: 0 <= k < |rests| ==> AddsAtMostOne(initial[k], rests[k], DayNumbers(eligible))
  {
    forall k | 0 <= k < |rests| ensures AddsAtMostOne(initial[k], rests[k], DayNumbers(eligible)) {
      if given[k] {
        var i :| 0 <= i < |eligible| && eligible[i].day == picked[k];
      }
    }
  }

  /** The guarantee of a finished week for the days in `options`: every employee holds at most
      one of them, and each of them has at most `cap` employees resting on it, with exactly
      `cap` unless every employee already holds one of them. */
  predicate WeekDone(rests: seq<set<int>>, options: set<int>, cap: nat) {
    AtMostOneEach(rests, options) &&
    forall d :: d in options ==>
      Count(rests, d) <= cap && (Count(rests, d) == cap || forall k :: 0 <= k < |rests| ==> rests[k] * options != {})
  }

  /** What handing out the days of `options` did: each employee got at most one of them, and
      each of them has at most `cap` employees resting on it, with exactly `cap` unless every
      employee holds one of them. */
  predicate WeekOutcome(before: seq<set<int>>, after: seq<set<int>>, options: set<int>, cap: nat) {
    |after| == |before| &&
    (forall k :: 0 <= k < |before| ==> AddsAtMostOne(before[k], after[k], options)) &&
    forall d :: d in options ==>
      Count(after, d) <= cap && (Count(after, d) == cap || forall k :: 0 <= k < |after| ==> after[k] * options != {})
  }

  /** The bookkeeping of a finished week gives its outcome. */
  lemma TrackedWeekOutcome(eligible: seq<Day>, initial: seq<set<int>>, rests: seq<set<int>>, picked: seq<int>,
                           counts: seq<nat>, given: seq<bool>, cap: nat)
    requires Fresh(eligible, initial) && Tracked(eligible, initial, rests, picked, counts, given)
    requires forall i :: 0 <= i < |counts| ==> counts[i] <= cap && (counts[i] == cap || AllGiven(given))
    ensures WeekOutcome(initial, rests, DayNumbers(eligible), cap)
  {
    TrackedOutcome(eligible, initial, rests, picked, counts, given);
    forall d | d in DayNumbers(eligible)
      ensures Count(rests, d) <= cap &&
              (Count(rests, d) == cap || forall k :: 0 <= k < |rests| ==> rests[k] * DayNumbers(eligible) != {})
    {
      var i :| 0 <= i < |eligible| && eligible[i].day == d;
      if counts[i] != cap {
        AllAssigned(eligible, initial, rests, picked, counts, given);
      }
    }
  }

  /** An employee not yet given a day holds no day of the list: this is why the adjacency test
      of script.js:166 and 185 never rejects. */
  lemma NotYetGiven(eligible: seq<Day>, initial: seq<set<int>>, rests: seq<set<int>>, picked: seq<int>,
                    counts: seq<nat>, given: seq<bool>, k: nat)
    requires Fresh(eligible, initial) && Tracked(eligible, initial, rests, picked, counts, given)
    requires k < |given|
    ensures !given[k] ==> forall i :: 0 <= i < |eligible| ==> eligible[i].day !in rests[k]
  {
  }

  /** When nobody is available for a listed day, every employee has been given a day: the
      `break` of script.js:178 only happens then. */
  lemma NoneAvailable(pool: seq<Employee>, eligible: seq<Day>, initial: seq<set<int>>, rests: seq<set<int>>,
                      picked: seq<int>, counts: seq<nat>, given: seq<bool>, i: nat)
    requires Fresh(eligible, initial) && Tracked(eligible, initial, rests, picked, counts, given)
    requires Mirrors(pool, rests)
    requires i < |eligible| && AvailableFor(pool, given, eligible[i].day) == []
    ensures AllGiven(given)
  {
    forall k | 0 <= k < |given| ensures given[k] {
      NotYetGiven(eligible, initial, rests, picked, counts, given, k);
      assert k !in AvailableFor(pool, given, eligible[i].day);
    }
  }

  /** A week's outcome seen from the state before it: when nobody held a day of `options`
      before, the week is finished. */
  lemma WeekOutcomeDone(before: seq<set<int>>, after: seq<set<int>>, options: set<int>, cap: nat)
    requires forall k :: 0 <= k < |before| ==> before[k] * options == {}
    requires WeekOutcome(before, after, options, cap)
    ensures WeekDone(after, options, cap)
  {
    forall k, a, b | 0 <= k < |after| && a in after[k] && b in after[k] && a in options && b in options
      ensures a == b
    {
      assert a !in before[k] * options && b !in before[k] * options;
      if after[k] != before[k] {
        var d :| d in options && d !in before[k] && after[k] == before[k] + {d};
        assert a == d && b == d;
      }
    }
  }

  /** A week only adds days of its own `options`. */
  lemma OutcomeBounds(before: seq<set<int>>, after: seq<set<int>>, options: set<int>, cap: nat)
    requires WeekOutcome(before, after, options, cap)
    ensures forall k :: 0 <= k < |before| ==> before[k] <= after[k] <= before[k] + options
  {
    forall k | 0 <= k < |before| ensures before[k] <= after[k] <= before[k] + options {
      assert AddsAtMostOne(before[k], after[k], options);
    }
  }

  /** A later week only adds days of its own `others`, so a finished week stays finished. */
  lemma WeekDoneStable(before: seq<set<int>>, after: seq<set<int>>, options: set<int>, others: set<int>, cap: nat)
    requires |before| == |after| && options !! others
    requires forall k :: 0 <= k < |before| ==> before[k] <= after[k] <= before[k] + others
    requires WeekDone(before, options, cap)
    ensures WeekDone(after, options, cap)
  {
    forall k | 0 <= k < |before| ensures after[k] * options == before[k] * options {
    }
    forall d | d in options ensures Count(after, d) == Count(before, d) {
      CountSame(before, after, d);
    }
  }
}

=== FILE: calendar.dfy ===
/** The days of one month as `CalendarGenerator.getDays` (script.js:8-16) lists them. The
    generator itself wraps JavaScript's `Date`; here the day list is an input, constrained to
    the shape the generator produces. */
module Calendar {

  /** `{ day, weekday }`: the day number and its weekday as `Date.getDay` gives it
      (0 is Sunday, 1 Monday, ..., 6 Saturday). */
  datatype Day = Day(day: int, weekday: int)

  const Sunday := 0
  const Monday := 1
  const Friday := 5
  const Saturday := 6

  /** Days 1..n in order, each weekday one after the previous one's, modulo 7. */
  predicate IsMonth(days: seq<Day>) {
    |days| > 0 && 0 <= days[0].weekday < 7 &&
    forall i :: 0 <= i < |days| ==> days[i].day == i + 1 && days[i].weekday == (days[0].weekday + i) % 7
  }

  /** No day number occurs twice. */
  predicate DistinctDays(days: seq<Day>) {
    forall i, j :: 0 <= i < j < |days| ==> days[i].day != days[j].day
  }

  lemma MonthDaysDistinct(days: seq<Day>)
    requires IsMonth(days)
    ensures DistinctDays(days)
  {
  }

  /** The numbers of the days whose weekday is one of `weekdays`. */
  function DaysWithWeekday(days: seq<Day>, weekdays: set<int>): set<int> {
    set d | d in days && d.weekday in weekdays :: d.day
  }

  /** The day numbers of `days`. */
  function DayNumbers(days: seq<Day>): set<int> {
    set d | d in days :: d.day
  }
}

=== FILE: distributor.dfy ===
/** `DayOffDistributor` (script.js:112-283): every employee rests on the holidays and Sundays,
    employees with fixed weekdays also on every day with such a weekday, and the others get
    random extra rest days week by week; `redistributeForEmployee` moves one employee's extra
    day to another free weekday of its week. */
module Distributor {
  import opened Text
  import opened Calendar
  import opened Weeks
  import opened Roster
  import opened Assignment
  import opened WeekRest

  /** `base` plus the days of `days` whose weekday is in `weekdays`, added one by one as the
      `forEach` loops of script.js:122-140 do. */
  method AddDaysOn(base: set<int>, days: seq<Day>, weekdays: set<int>) returns (s: set<int>)
    ensures s == base + DaysWithWeekday(days, weekdays)
  {
    s := base;
    for i := 0 to |days|
      invariant s == base + DaysWithWeekday(days[..i], weekdays)
    {
      if days[i].weekday in weekdays {
        s := s + {days[i].day};
      }
      assert days[..i + 1] == days[..i] + [days[i]];
    }
    assert days[..|days|] == days;
  }

  /** A day of the month that is neither a Sunday nor a holiday is not a mandatory rest day. */
  lemma NotMandatory(days: seq<Day>, holidays: set<int>, d: Day)
    requires IsMonth(days) && d in days && d.weekday != Sunday && d.day !in holidays
    ensures d.day !in Mandatory(days, holidays)
  {
    var i :| 0 <= i < |days| && days[i] == d;
    forall e | e in days && e.weekday == Sunday ensures e.day != d.day {
      var j :| 0 <= j < |days| && days[j] == e;
      assert i != j;
    }
  }

  /** `Array.from(set)`: the elements of `s`, each once. JavaScript lists them in insertion
      order; here the order is left open. */
  method Enumerate(s: set<int>) returns (list: seq<int>)
    ensures forall x :: x in list <==> x in s
    ensures |list| == |s|
  {
    list := [];
    var rest := s;
    while rest != {}
      invariant forall x :: x in s <==> x in list || x in rest
      invariant forall x :: x in list ==> x !in rest
      invariant |list| + |rest| == |s|
      decreases |rest|
    {
      assert (forall y :: y !in rest) ==> rest == {};
      var x :| x in rest;
      list := list + [x];
      rest := rest - {x};
    }
  }

  /** `array.filter(day => !excluded.has(day))`. */
  function Outside(list: seq<int>, excluded: set<int>): (kept: seq<int>)
    ensures forall x :: x in kept <==> x in list && x !in excluded
    ensures |kept| <= |list|
  {
    if list == [] then []
    else
      var rest := Outside(list[1..], excluded);
      if list[0] in excluded then rest else [list[0]] + rest
  }

  /** The day numbers of `list` that are not in `restDays`, in order. */
  function FreeDays(list: seq<Day>, restDays: set<int>): (free: seq<int>)
    ensures forall x :: x in free <==> x !in restDays && exists d :: d in list && d.day == x
  {
    if list == [] then []
    else
      var rest := FreeDays(list[1..], restDays);
      assert forall d :: d in list <==> d == list[0] || d in list[1..];
      if list[0].day in restDays then rest else [list[0].day] + rest
  }

  /** What `dayToWeek` maps a day to. */
  datatype WeekInfo = WeekInfo(weekIndex: nat, isComplete: bool)

  class DayOffDistributor {
    const employees: seq<Employee>
    const weeks: seq<Week>
    const holidays: set<int>
    const days: seq<Day>

    constructor (employees: seq<Employee>, weeks: seq<Week>, holidays: set<int>, days: seq<Day>)
      ensures this.employees == employees && this.weeks == weeks && this.holidays == holidays && this.days == days
    {
      this.employees := employees;
      this.weeks := weeks;
      this.holidays := holidays;
      this.days := days;
    }

    /** The distributor is built from a month's days, the weeks `getWeeks` makes of them and
        the employees `loadEmployees` creates, each a separate object. */
    predicate Valid() {
      IsMonth(days) && IsWeekPartition(weeks, days, holidays) && Distinct(employees)
    }

    /** The days week `w` hands out as random rest days. */
    function Options(w: nat): set<int>
      requires w < |weeks|
    {
      if weeks[w].isComplete then DayNumbers(WeekList(weeks[w].days, Friday, holidays, Blocked(employees)))
      else IncompleteOptions(WeekList(weeks[w].days, Saturday, holidays, Blocked(employees)))
    }

    /** How many pool employees may rest on each of those days. */
    function Cap(w: nat): nat
      requires w < |weeks|
    {
      if weeks[w].isComplete then 2 else 1
    }

    /** The days the first `n` weeks hand out. */
    function OptionsUpTo(n: nat): set<int>
      requires n <= |weeks|
    {
      if n == 0 then {} else OptionsUpTo(n - 1) + Options(n - 1)
    }

    /** The days of week `w` that are neither Sundays nor holidays. */
    function Open(w: nat): set<int>
      requires w < |weeks|
    {
      set d | d in weeks[w].days && d.weekday != Sunday && d.day !in holidays :: d.day
    }

    lemma OptionsOpen(w: nat)
      requires w < |weeks|
      ensures Options(w) <= Open(w) <= WeekDays(weeks[w])
    {
      var list := WeekList(weeks[w].days, if weeks[w].isComplete then Friday else Saturday, holidays, Blocked(employees));
      forall x | x in Options(w) ensures x in Open(w) {
        var d :| d in list && d.day == x;
      }
    }

    /** Days handed out by earlier weeks lie outside week `w`. */
    lemma {:induction false} EarlierOptionsOutside(n: nat, w: nat)
      requires Valid() && n <= w < |weeks|
      ensures OptionsUpTo(n) !! Open(w)
      decreases n
    {
      if n > 0 {
        EarlierOptionsOutside(n - 1, w);
        OptionsOpen(n - 1);
        MonthDaysDistinct(days);
        WeeksDisjoint(weeks);
        forall x | x in Options(n - 1) ensures x !in Open(w) {
          var d :| d in weeks[n - 1].days && d.day == x;
          assert x in WeekDays(weeks[n - 1]);
          assert x !in WeekDays(weeks[w]);
        }
      }
    }

    /** A pool employee's rest days before week `w` hold none of its open days. */
    lemma OpenFresh(w: nat, rests: seq<set<int>>)
      requires Valid() && w < |weeks|
      requires forall k :: 0 <= k < |rests| ==> rests[k] <= Mandatory(days, holidays) + OptionsUpTo(w)
      ensures forall k :: 0 <= k < |rests| ==> rests[k] !! Open(w)
    {
      EarlierOptionsOutside(w, w);
      forall x | x in Open(w) ensures x !in Mandatory(days, holidays) {
        var d :| d in weeks[w].days && d.weekday != Sunday && d.day !in holidays && d.day == x;
        WeekInFlatten(weeks, w);
        NotMandatory(days, holidays, d);
      }
    }

    /** One week of `distribute` (script.js:144-221). */
    method ProcessWeek(pool: seq<Employee>, w: nat, draw: nat -> nat, t0: nat) returns (t: nat)
      requires Valid() && w < |weeks| && Distinct(pool)
      requires forall k :: 0 <= k < |pool| ==> pool[k].restDays !! Open(w)
      modifies pool
      ensures SchedulesKept(pool, old(Schedules(pool)))
      ensures WeekOutcome(old(RestSets(pool)), RestSets(pool), Options(w), Cap(w))
      ensures t >= t0
    {
      MonthDaysDistinct(days);
      WeekDistinct(weeks, w);
      var lastWeekday := if weeks[w].isComplete then Friday else Saturday;
      var list := WeekList(weeks[w].days, lastWeekday, holidays, Blocked(employees));
      assert Fresh(list, RestSets(pool)) by {
        forall k, i | 0 <= k < |pool| && 0 <= i < |list| ensures list[i].day !in RestSets(pool)[k] {
          assert list[i] in list;
          assert list[i].day in Open(w);
        }
      }
      if weeks[w].isComplete {
        t := CompleteWeek(pool, list, draw, t0);
      } else {
        t := IncompleteWeek(pool, list, draw, t0);
      }
    }
  
    /** script.js:122-140: every employee rests on the holidays and Sundays, and an employee
        with fixed weekdays also on every day with one of those weekdays. */
    method SeedRestDays()
      requires Distinct(employees)
      modifies employees
      ensures forall k :: 0 <= k < |employees| ==>
                employees[k].restDays == Mandatory(days, holidays) + DaysWithWeekday(days, employees[k].fixedRestDays)
      ensures forall k :: 0 <= k < |employees| ==> employees[k].schedule == old(employees[k].schedule)
    {
      for i := 0 to |employees|
        invariant forall k :: 0 <= k < i ==> employees[k].restDays == Mandatory(days, holidays)
        invariant forall k :: 0 <= k < |employees| ==> employees[k].schedule == old(employees[k].schedule)
      {
        employees[i].restDays := AddDaysOn(holidays, days, {Sunday});
      }
      for i := 0 to |employees|
        invariant forall k :: 0 <= k < i ==>
                    employees[k].restDays == Mandatory(days, holidays) + DaysWithWeekday(days, employees[k].fixedRestDays)
        invariant forall k :: i <= k < |employees| ==> employees[k].restDays == Mandatory(days, holidays)
        invariant forall k :: 0 <= k < |employees| ==> employees[k].schedule == old(employees[k].schedule)
      {
        if employees[i].fixedRestDays != {} {
          employees[i].restDays := AddDaysOn(employees[i].restDays, days, employees[i].fixedRestDays);
        }
      }
    }

    /** Every employee of `rests` holds the mandatory days and otherwise only days the first
        `n` weeks hand out. */
    predicate Bounded(rests: seq<set<int>>, n: nat)
      requires n <= |weeks|
    {
      forall k :: 0 <= k < |rests| ==>
        Mandatory(days, holidays) <= rests[k] <= Mandatory(days, holidays) + OptionsUpTo(n)
    }

    /** Handing out week `w`'s days keeps the earlier weeks finished and finishes week `w`. */
    lemma WeekStep(w: nat, before: seq<set<int>>, after: seq<set<int>>)
      requires Valid() && w < |weeks| && Bounded(before, w)
      requires forall j :: 0 <= j < w ==> WeekDone(before, Options(j), Cap(j))
      requires WeekOutcome(before, after, Options(w), Cap(w))
      ensures Bounded(after, w + 1)
      ensures forall j :: 0 <= j < w + 1 ==> WeekDone(after, Options(j), Cap(j))
    {
      OutcomeBounds(before, after, Options(w), Cap(w));
      WeekFinished(w, before, after);
      forall j | 0 <= j < w ensures WeekDone(after, Options(j), Cap(j)) {
        EarlierOptionsOutside(j + 1, w);
        OptionsOpen(w);
        WeekDoneStable(before, after, Options(j), Options(w), Cap(j));
      }
    }

    lemma WeekFinished(w: nat, before: seq<set<int>>, after: seq<set<int>>)
      requires Valid() && w < |weeks| && Bounded(before, w)
      requires WeekOutcome(before, after, Options(w), Cap(w))
      ensures WeekDone(after, Options(w), Cap(w))
    {
      OpenFresh(w, before);
      OptionsOpen(w);
      WeekOutcomeDone(before, after, Options(w), Cap(w));
    }

    /** script.js:142-222: the weeks in order, each handing out its days to the pool. Every
        pool employee keeps the mandatory days and gains only days some week hands out, and
        every week is finished: each pool employee holds at most one of its days, and each of
        them has at most `Cap(w)` pool employees resting on it, exactly `Cap(w)` unless every
        pool employee already holds one of the week's days. */
    method DistributeWeeks(pool: seq<Employee>, draw: nat -> nat, t0: nat) returns (t: nat)
      requires Valid() && Distinct(pool)
      requires forall k :: 0 <= k < |pool| ==> pool[k].restDays == Mandatory(days, holidays)
      modifies pool
      ensures Bounded(RestSets(pool), |weeks|)
      ensures forall w :: 0 <= w < |weeks| ==> WeekDone(RestSets(pool), Options(w), Cap(w))
      ensures forall e :: e in pool ==> e.schedule == old(e.schedule)
      ensures t >= t0
    {
      t := t0;
      ghost var schedules := Schedules(pool);
      ghost var rests := RestSets(pool);
      for w := 0 to |weeks|
        invariant Mirrors(pool, rests) && Bounded(rests, w)
        invariant forall j :: 0 <= j < w ==> WeekDone(rests, Options(j), Cap(j))
        invariant SchedulesKept(pool, schedules)
        invariant t >= t0
      {
        t, rests := StepWeek(pool, w, draw, t, rests);
      }
      MirrorsRestSets(pool, rests);
      forall e | e in pool ensures e.schedule == old(e.schedule) {
        var k :| 0 <= k < |pool| && pool[k] == e;
      }
    }

    /** One turn of the weeks loop. */
    method StepWeek(pool: seq<Employee>, w: nat, draw: nat -> nat, t0: nat, ghost rests0: seq<set<int>>)
      returns (t: nat, ghost rests: seq<set<int>>)
      requires Valid() && Distinct(pool) && w < |weeks|
      requires Mirrors(pool, rests0) && Bounded(rests0, w)
      requires forall j :: 0 <= j < w ==> WeekDone(rests0, Options(j), Cap(j))
      modifies pool
      ensures Mirrors(pool, rests) && Bounded(rests, w + 1)
      ensures forall j :: 0 <= j < w + 1 ==> WeekDone(rests, Options(j), Cap(j))
      ensures SchedulesKept(pool, old(Schedules(pool)))
      ensures t >= t0
    {
      MirrorsRestSets(pool, rests0);
      OpenFresh(w, rests0);
      t := ProcessWeek(pool, w, draw, t0);
      rests := RestSets(pool);
      WeekStep(w, rests0, rests);
    }

    /** script.js:224-227: every employee's schedule loses the entries on their rest days. */
    method FilterSchedules()
      requires Distinct(employees)
      modifies employees
      ensures forall k :: 0 <= k < |employees| ==> employees[k].restDays == old(employees[k].restDays)
      ensures forall k :: 0 <= k < |employees| ==>
                employees[k].schedule == WithoutRestDays(old(employees[k].schedule), employees[k].restDays)
    {
      for i := 0 to |employees|
        invariant forall k :: 0 <= k < |employees| ==> employees[k].restDays == old(employees[k].restDays)
        invariant forall k :: 0 <= k < i ==>
                    employees[k].schedule == WithoutRestDays(old(employees[k].schedule), employees[k].restDays)
        invariant forall k :: i <= k < |employees| ==> employees[k].schedule == old(employees[k].schedule)
      {
        employees[i].schedule := WithoutRestDays(employees[i].schedule, employees[i].restDays);
      }
    }

    /** The rest days `distribute` leaves, before the schedules are filtered
        (script.js:121-222). */
    method AssignRestDays(draw: nat -> nat, t0: nat) returns (t: nat)
      requires Valid()
      modifies employees
      ensures forall k :: 0 <= k < |employees| && employees[k].fixedRestDays != {} ==>
                employees[k].restDays == Mandatory(days, holidays) + DaysWithWeekday(days, employees[k].fixedRestDays)
      ensures Bounded(RestSets(Pool(employees)), |weeks|)
      ensures forall w :: 0 <= w < |weeks| ==> WeekDone(RestSets(Pool(employees)), Options(w), Cap(w))
      ensures forall k :: 0 <= k < |employees| ==> employees[k].schedule == old(employees[k].schedule)
    {
      SeedRestDays();
      ghost var seeded := RestSets(employees);
      ghost var schedules := Schedules(employees);
      var pool := Pool(employees);
      forall k | 0 <= k < |pool| ensures pool[k].restDays == Mandatory(days, holidays) {
        var i :| 0 <= i < |employees| && employees[i] == pool[k];
        assert DaysWithWeekday(days, pool[k].fixedRestDays) == {};
      }
      t := DistributeWeeks(pool, draw, t0);
      forall k | 0 <= k < |employees|
        ensures employees[k].fixedRestDays != {} ==> employees[k].restDays == seeded[k]
        ensures employees[k].schedule == schedules[k]
      {
        if employees[k].fixedRestDays != {} {
          assert employees[k] !in pool;
        } else {
          assert employees[k] in pool;
        }
      }
    }

    /** `distribute` (script.js:120-227): the fixed-day employees rest on the mandatory days
        and their fixed weekdays, the pool employees on the mandatory days and the days the
        weeks hand out to them, every week is finished, and every schedule has lost its entries
        on the owner's rest days. */
    method Distribute(draw: nat -> nat, t0: nat) returns (t: nat)
      requires Valid()
      modifies employees
      ensures forall k :: 0 <= k < |employees| && employees[k].fixedRestDays != {} ==>
                employees[k].restDays == Mandatory(days, holidays) + DaysWithWeekday(days, employees[k].fixedRestDays)
      ensures Bounded(RestSets(Pool(employees)), |weeks|)
      ensures forall w :: 0 <= w < |weeks| ==> WeekDone(RestSets(Pool(employees)), Options(w), Cap(w))
      ensures forall k :: 0 <= k < |employees| ==>
                employees[k].schedule == WithoutRestDays(old(employees[k].schedule), employees[k].restDays)
      ensures forall k :: 0 <= k < |employees| ==> Mandatory(days, holidays) <= employees[k].restDays
      ensures forall k, e :: 0 <= k < |employees| && e in employees[k].schedule ==> e.day !in employees[k].restDays
    {
      t := AssignRestDays(draw, t0);
      ghost var pool := Pool(employees);
      ghost var rests := RestSets(pool);
      FilterSchedules();
      assert RestSets(pool) == rests;
      forall k | 0 <= k < |employees| ensures Mandatory(days, holidays) <= employees[k].restDays {
        if employees[k].fixedRestDays == {} {
          var j :| 0 <= j < |pool| && pool[j] == employees[k];
          assert rests[j] == employees[k].restDays;
        }
      }
    }

    /** In a finished complete week no pool employee rests on two neighbouring days of the
        week's list: the rule the adjacency test of script.js:164-166 and 182-185 stands for. */
    lemma NoNeighbouringRest(w: nat, rests: seq<set<int>>)
      requires Valid() && w < |weeks| && weeks[w].isComplete
      requires WeekDone(rests, Options(w), Cap(w))
      ensures var list := WeekList(weeks[w].days, Friday, holidays, Blocked(employees));
              forall k, i :: 0 <= k < |rests| && 0 < i < |list| ==> !(list[i - 1].day in rests[k] && list[i].day in rests[k])
    {
      MonthDaysDistinct(days);
      WeekDistinct(weeks, w);
      var list := WeekList(weeks[w].days, Friday, holidays, Blocked(employees));
      forall k, i | 0 <= k < |rests| && 0 < i < |list|
        ensures !(list[i - 1].day in rests[k] && list[i].day in rests[k])
      {
        assert list[i - 1] in list && list[i] in list;
        assert list[i - 1].day in Options(w) && list[i].day in Options(w);
        assert list[i - 1].day != list[i].day;
      }
    }

    /** The last of the first `n` weeks that contains day `x`, if any. */
    function LastWeek(n: nat, x: int): (w: Option<nat>)
      requires n <= |weeks|
      ensures w.Some? ==> w.value < n && x in WeekDays(weeks[w.value])
      ensures w.None? ==> forall j :: 0 <= j < n ==> x !in WeekDays(weeks[j])
      ensures w.Some? ==> forall j :: w.value < j < n ==> x !in WeekDays(weeks[j])
    {
      if n == 0 then None
      else if x in WeekDays(weeks[n - 1]) then Some(n - 1)
      else LastWeek(n - 1, x)
    }

    /** The week containing day `x` as `dayToWeek` records it: the last one, as later
        `Map.set` calls overwrite earlier ones. */
    function WeekOf(x: int): (r: Option<nat>)
      ensures r.Some? ==> r.value < |weeks| && x in WeekDays(weeks[r.value])
      ensures r.None? <==> forall j :: 0 <= j < |weeks| ==> x !in WeekDays(weeks[j])
    {
      LastWeek(|weeks|, x)
    }

    function Info(w: nat): WeekInfo
      requires w < |weeks|
    {
      WeekInfo(w, weeks[w].isComplete)
    }

    /** The inner `forEach` of script.js:240-244 for week `w`. */
    method RecordWeek(m0: map<int, WeekInfo>, w: nat) returns (m: map<int, WeekInfo>)
      requires w < |weeks|
      ensures forall x :: x in WeekDays(weeks[w]) ==> x in m && m[x] == Info(w)
      ensures forall x :: x !in WeekDays(weeks[w]) ==> (x in m <==> x in m0) && (x in m0 ==> m[x] == m0[x])
    {
      m := m0;
      var ds := weeks[w].days;
      for i := 0 to |ds|
        invariant forall x :: x in DayNumbers(ds[..i]) ==> x in m && m[x] == Info(w)
        invariant forall x :: x !in DayNumbers(ds[..i]) ==> (x in m <==> x in m0) && (x in m0 ==> m[x] == m0[x])
      {
        m := m[ds[i].day := Info(w)];
        assert ds[..i + 1] == ds[..i] + [ds[i]];
        assert DayNumbers(ds[..i + 1]) == DayNumbers(ds[..i]) + {ds[i].day};
      }
      assert ds[..|ds|] == ds;
    }

    /** `dayToWeek` (script.js:237-245): every day of a week maps to its week and whether that
        week is complete. */
    method DayToWeek() returns (m: map<int, WeekInfo>)
      ensures forall x :: x in m <==> WeekOf(x).Some?
      ensures forall x :: x in m ==> m[x] == Info(WeekOf(x).value)
    {
      m := map[];
      for w := 0 to |weeks|
        invariant forall x :: x in m <==> LastWeek(w, x).Some?
        invariant forall x :: x in m ==> LastWeek(w, x).Some? && m[x] == Info(LastWeek(w, x).value)
      {
        m := RecordWeek(m, w);
      }
    }

    /** `availableDays` (script.js:256-265): the weekdays of week `w` that are no holiday, not
        already a rest day of the employee and no one's fixed weekday, in order. */
    function Candidates(w: nat, restDays: set<int>): (free: seq<int>)
      requires w < |weeks|
      ensures forall x :: x in free <==>
                (x !in restDays &&
                 exists d :: d in weeks[w].days && d.day == x && Monday <= d.weekday <= Friday &&
                             d.day !in holidays && d.weekday !in Blocked(employees))
    {
      FreeDays(WeekList(weeks[w].days, Friday, holidays, Blocked(employees)), restDays)
    }

    /** Moving rest day `r` to `s` is one of the moves `redistributeForEmployee` can make for
        an employee resting on `restDays`. */
    predicate SwapAllowed(r: int, s: int, restDays: set<int>) {
      r in restDays && r !in Mandatory(days, holidays) &&
      WeekOf(r).Some? && weeks[WeekOf(r).value].isComplete && s in Candidates(WeekOf(r).value, restDays)
    }

    /** Some move from `r` exists. */
    predicate CanSwap(r: int, restDays: set<int>) {
      WeekOf(r).Some? && weeks[WeekOf(r).value].isComplete && |Candidates(WeekOf(r).value, restDays)| > 0
    }

    /** `redistributeForEmployee` (script.js:229-282): one random extra rest day (neither
        holiday nor Sunday) is moved to a random free weekday of its week when that week is
        complete, and the schedule is filtered again; otherwise nothing changes. The page only
        calls it for an employee without fixed rest weekdays (script.js:848-851). */
    method RedistributeForEmployee(employee: Employee, draw: nat -> nat, t0: nat) returns (t: nat)
      requires Valid() && employee.fixedRestDays == {}
      modifies employee
      ensures (employee.restDays == old(employee.restDays) && employee.schedule == old(employee.schedule)) ||
              exists r, s :: SwapAllowed(r, s, old(employee.restDays)) &&
                employee.restDays == old(employee.restDays) - {r} + {s} &&
                employee.schedule == WithoutRestDays(old(employee.schedule), employee.restDays)
      ensures old(employee.restDays) <= Mandatory(days, holidays) ==> employee.restDays == old(employee.restDays)
      ensures (forall r :: r in old(employee.restDays) && r !in Mandatory(days, holidays) ==> CanSwap(r, old(employee.restDays))) &&
              !(old(employee.restDays) <= Mandatory(days, holidays)) ==>
                employee.restDays != old(employee.restDays)
      ensures t >= t0
    {
      t := t0;
      var fixedRestDays := AddDaysOn(holidays, days, {Sunday});
      var all := Enumerate(employee.restDays);
      var randomRestDays := Outside(all, fixedRestDays);
      var dayToWeek := DayToWeek();
      if |randomRestDays| == 0 {
        assert employee.restDays <= Mandatory(days, holidays) by {
          forall x | x in employee.restDays ensures x in Mandatory(days, holidays) {
            assert x in all;
            assert x !in randomRestDays;
          }
        }
        return;
      }
      var restDay := randomRestDays[draw(t) % |randomRestDays|];
      t := t + 1;
      assert restDay in randomRestDays;
      if restDay !in dayToWeek || !dayToWeek[restDay].isComplete {
        return;
      }
      var w := dayToWeek[restDay].weekIndex;
      var availableDays := Candidates(w, employee.restDays);
      if |availableDays| == 0 {
        return;
      }
      var swapDay := availableDays[draw(t) % |availableDays|];
      t := t + 1;
      assert swapDay in availableDays;
      assert SwapAllowed(restDay, swapDay, employee.restDays);
      employee.restDays := employee.restDays - {restDay} + {swapDay};
      employee.schedule := WithoutRestDays(employee.schedule, employee.restDays);
    }

    /** A move keeps the number of rest days and the mandatory ones, and lands on a free day
        of the same week that is not mandatory. */
    lemma SwapShape(r: int, s: int, restDays: set<int>)
      requires Valid() && SwapAllowed(r, s, restDays)
      ensures |restDays - {r} + {s}| == |restDays|
      ensures (restDays - {r} + {s}) * Mandatory(days, holidays) == restDays * Mandatory(days, holidays)
      ensures s != r && s !in restDays && s !in Mandatory(days, holidays)
      ensures s in WeekDays(weeks[WeekOf(r).value])
    {
      var w := WeekOf(r).value;
      var d :| d in weeks[w].days && d.day == s && Monday <= d.weekday <= Friday &&
               d.day !in holidays && d.weekday !in Blocked(employees);
      assert s in WeekDays(weeks[w]);
      WeekInFlatten(weeks, w);
      NotMandatory(days, holidays, d);
      assert |restDays - {r}| == |restDays| - 1;
    }

    lemma {:induction false} InOptionsUpTo(n: nat, x: int)
      requires n <= |weeks| && x in OptionsUpTo(n)
      ensures exists j :: 0 <= j < n && x in Options(j)
      decreases n
    {
      assert OptionsUpTo(n) == OptionsUpTo(n - 1) + Options(n - 1);
      if x !in Options(n - 1) {
        InOptionsUpTo(n - 1, x);
        var j :| 0 <= j < n - 1 && x in Options(j);
        assert j < n;
      }
    }

    /** For an employee `distribute` left with the mandatory days and handed-out days, a move
        keeps that shape and keeps, for every week, how many of its handed-out days the
        employee holds: the moved day and its replacement are both handed out by the same
        complete week. */
    lemma SwapKeepsWeeks(r: int, s: int, restDays: set<int>)
      requires Valid() && SwapAllowed(r, s, restDays)
      requires Mandatory(days, holidays) <= restDays <= Mandatory(days, holidays) + OptionsUpTo(|weeks|)
      ensures Mandatory(days, holidays) <= restDays - {r} + {s} <= Mandatory(days, holidays) + OptionsUpTo(|weeks|)
      ensures forall j :: 0 <= j < |weeks| ==> |(restDays - {r} + {s}) * Options(j)| == |restDays * Options(j)|
    {
      var w := WeekOf(r).value;
      SwapShape(r, s, restDays);
      SwapWithinWeek(r, s, restDays);
      OptionsUpToHas(|weeks|, w);
      forall i | 0 <= i < |weeks| ensures |(restDays - {r} + {s}) * Options(i)| == |restDays * Options(i)| {
        SwapCount(r, s, restDays, w, i);
      }
    }

    /** The moved day and its replacement are both handed out by the moved day's week. */
    lemma SwapWithinWeek(r: int, s: int, restDays: set<int>)
      requires Valid() && SwapAllowed(r, s, restDays)
      requires restDays <= Mandatory(days, holidays) + OptionsUpTo(|weeks|)
      ensures r in Options(WeekOf(r).value) && s in Options(WeekOf(r).value)
    {
      var w := WeekOf(r).value;
      InOptionsUpTo(|weeks|, r);
      var j :| 0 <= j < |weeks| && r in Options(j);
      OptionsOpen(j);
      MonthDaysDistinct(days);
      WeeksDisjoint(weeks);
      assert r in WeekDays(weeks[j]) && r in WeekDays(weeks[w]);
      assert j == w;
      var d :| d in weeks[w].days && d.day == s && Monday <= d.weekday <= Friday &&
               d.day !in holidays && d.weekday !in Blocked(employees);
      assert d in WeekList(weeks[w].days, Friday, holidays, Blocked(employees));
    }

    /** Moving a rest day within the days week `w` hands out leaves the count of every week's
        handed-out days the employee holds unchanged. */
    lemma SwapCount(r: int, s: int, restDays: set<int>, w: nat, i: nat)
      requires Valid() && w < |weeks| && i < |weeks|
      requires r in restDays && r in Options(w) && s in Options(w) && s !in restDays
      ensures |(restDays - {r} + {s}) * Options(i)| == |restDays * Options(i)|
    {
      if i == w {
        ReplaceCount(restDays, Options(i), r, s);
      } else {
        OptionsDisjoint(i, w);
        ReplaceOutside(restDays, Options(i), r, s);
      }
    }

    /** Different weeks hand out different days. */
    lemma OptionsDisjoint(i: nat, w: nat)
      requires Valid() && i < |weeks| && w < |weeks| && i != w
      ensures Options(i) !! Options(w)
    {
      OptionsOpen(i);
      OptionsOpen(w);
      MonthDaysDistinct(days);
      WeeksDisjoint(weeks);
    }

    lemma {:induction false} OptionsUpToHas(n: nat, w: nat)
      requires w < n <= |weeks|
      ensures Options(w) <= OptionsUpTo(n)
      decreases n
    {
      if w < n - 1 {
        OptionsUpToHas(n - 1, w);
      }
    }
  }

  /** Replacing an element of `a` that lies in `b` by one outside `a` that also lies in `b`
      keeps the size of the overlap. */
  lemma ReplaceCount(a: set<int>, b: set<int>, r: int, s: int)
    requires r in a && r in b && s !in a && s in b
    ensures |(a - {r} + {s}) * b| == |a * b|
  {
    var overlap := a * b;
    assert (a - {r} + {s}) * b == (overlap - {r}) + {s};
    assert |overlap - {r}| == |overlap| - 1;
    assert s !in overlap - {r};
  }

  /** Replacing an element by another, neither of them in `b`, keeps the overlap with `b`. */
  lemma ReplaceOutside(a: set<int>, b: set<int>, r: int, s: int)
    requires r !in b && s !in b
    ensures (a - {r} + {s}) * b == a * b
  {
  }
}

=== FILE: format.dfy ===
/** The text forms of hours, breaks and clock times that `ScheduleRenderer` (script.js:409-419)
    and `HourAllocator.allocate` (script.js:380, 395) produce. Hours and breaks are in
    half-hour units: 7 stands for 3.5 hours. */
module Format {
  import opened Text

  /** `formatHours`: "-" for zero, otherwise whole hours, a colon and "30" or "00". */
  function FormatHours(hours: nat): (text: string)
    ensures ParseHoursText(text) == Some(hours)
    ensures text == "-" <==> hours == 0
  {
    FormatHoursRoundTrip(hours);
    if hours == 0 then "-" else NatToString(hours / 2) + ":" + (if hours % 2 == 1 then "30" else "00")
  }

  /** Reads back an hours text; the inverse of `FormatHours`. Only the texts `formatHours`
      writes are read: whole hours in plain decimal without a leading zero, and no "0:00",
      since zero is written "-". */
  function ParseHoursText(text: string): Option<nat> {
    if text == "-" then Some(0)
    else
      var parts := SplitOn(text, ':');
      if |parts| == 2 && AllDigits(parts[0]) && parts[0] == NatToString(DigitsValue(parts[0])) &&
         (parts[1] == "30" || (parts[1] == "00" && DigitsValue(parts[0]) > 0))
      then Some(2 * DigitsValue(parts[0]) + (if parts[1] == "30" then 1 else 0))
      else None
  }

  /** The text `FormatHours` writes is the only one that reads back to its hours. */
  lemma FormatHoursUnique(text: string, hours: nat)
    requires ParseHoursText(text) == Some(hours)
    ensures text == FormatHours(hours)
  {
    if text != "-" {
      var parts := SplitOn(text, ':');
      JoinSplit(text, ':');
      assert JoinWith(parts, ':') == parts[0] + [':'] + parts[1];
      assert hours / 2 == DigitsValue(parts[0]);
    }
  }

  lemma SplitClockText(whole: string, minutes: string)
    requires AllDigits(whole)
    requires ':' !in minutes
    ensures SplitOn(whole + ":" + minutes, ':') == [whole, minutes]
  {
    assert ':' !in whole by { assert AllDigits(whole); }
    SplitOnSeparated(whole, ':', minutes);
    SplitOnFree(minutes, ':');
  }

  lemma FormatHoursRoundTrip(hours: nat)
    ensures hours == 0 ==> ParseHoursText("-") == Some(hours)
    ensures hours > 0 ==>
              ParseHoursText(NatToString(hours / 2) + ":" + (if hours % 2 == 1 then "30" else "00")) == Some(hours)
  {
    if hours > 0 {
      var whole := NatToString(hours / 2);
      var minutes := if hours % 2 == 1 then "30" else "00";
      var text := whole + ":" + minutes;
      assert text != "-" by { assert IsDigit(text[0]); }
      SplitClockText(whole, minutes);
      DigitsValueOfNatToString(hours / 2);
    }
  }

  /** `formatBreak`: "-" for no break, "30p" for half an hour, "60p" for anything else. */
  function FormatBreak(breakTime: nat): (text: string)
    ensures ParseBreakText(text) == Some(if breakTime <= 2 then breakTime else 2)
  {
    if breakTime == 0 then "-" else if breakTime == 1 then "30p" else "60p"
  }

  /** Reads back a break text, in half-hour units. */
  function ParseBreakText(text: string): Option<nat> {
    if text == "-" then Some(0)
    else if text == "30p" then Some(1)
    else if text == "60p" then Some(2)
    else None
  }

  /** `n.toString().padStart(2, '0')`. */
  function Pad2(n: nat): (text: string)
    requires n < 100
    ensures |text| == 2 && AllDigits(text) && DigitsValue(text) == n
  {
    DigitsValueOfNatToString(n);
    var s := NatToString(n);
    if |s| < 2 then "0" + s else s
  }

  /** The start time as the allocator writes it: `${startHour}:00`, not padded. */
  function StartTimeText(hour: nat): (text: string)
    ensures ClockMinutes(text) == Some(hour * 60)
  {
    var whole := NatToString(hour);
    SplitClockText(whole, "00");
    DigitsValueOfNatToString(hour);
    assert DigitsValue("00") == 0 by { assert "00"[..1] == "0"; }
    whole + ":" + "00"
  }

  /** The end time as the allocator writes it: both fields padded to two digits. */
  function EndTimeText(hour: nat, minute: nat): (text: string)
    requires hour < 100 && minute < 60
    ensures ClockMinutes(text) == Some(hour * 60 + minute)
  {
    SplitClockText(Pad2(hour), Pad2(minute));
    Pad2(hour) + ":" + Pad2(minute)
  }

  /** Minutes after midnight of an `H:MM` or `HH:MM` text. */
  function ClockMinutes(text: string): Option<nat> {
    var parts := SplitOn(text, ':');
    if |parts| == 2 && parts[0] != [] && AllDigits(parts[0]) && |parts[1]| == 2 && AllDigits(parts[1])
    then Some(DigitsValue(parts[0]) * 60 + DigitsValue(parts[1]))
    else None
  }
}

=== FILE: holidays.dfy ===
/** `HolidayPicker` (script.js:19-33): the free-text holiday field, a comma-separated list of
    day numbers, becomes the set of holiday day numbers. */
module Holidays {
  import opened Text

  /** One comma piece, trimmed and read with `parseInt`; NaN and values below 1 give `None`. */
  function PieceDay(piece: string): (day: Option<int>)
    ensures day.Some? ==> day.value >= 1 && ParseInt(Trim(piece)) == day
  {
    match ParseInt(Trim(piece))
    case Some(n) => if n >= 1 then Some(n) else None
    case None => None
  }

  /** The `map` over the comma pieces: each piece's value, or `None` where the source has `null`. */
  function PieceDays(pieces: seq<string>): (days: seq<Option<int>>)
    ensures |days| == |pieces|
    ensures forall i :: 0 <= i < |pieces| ==> days[i] == PieceDay(pieces[i])
  {
    seq(|pieces|, i requires 0 <= i < |pieces| => PieceDay(pieces[i]))
  }

  /** The `filter(day => day !== null)`: the values present, in order. */
  function Present(days: seq<Option<int>>): (values: seq<int>)
    ensures forall n :: n in values ==> Some(n) in days
  {
    if days == [] then [] else (if days[0].Some? then [days[0].value] else []) + Present(days[1..])
  }

  lemma {:induction false} PresentMembers(days: seq<Option<int>>, n: int)
    ensures n in Present(days) <==> exists i :: 0 <= i < |days| && days[i] == Some(n)
  {
    if days != [] {
      PresentMembers(days[1..], n);
      if exists i :: 0 <= i < |days| && days[i] == Some(n) {
        var i :| 0 <= i < |days| && days[i] == Some(n);
        if i > 0 { assert days[1..][i - 1] == days[i]; }
      }
      if exists i :: 0 <= i < |days[1..]| && days[1..][i] == Some(n) {
        var i :| 0 <= i < |days[1..]| && days[1..][i] == Some(n);
        assert days[i + 1] == days[1..][i];
      }
    }
  }

  lemma {:induction false} PresentAll(days: seq<Option<int>>, values: seq<int>)
    requires |days| == |values| && forall i :: 0 <= i < |days| ==> days[i] == Some(values[i])
    ensures Present(days) == values
  {
    if days != [] {
      PresentAll(days[1..], values[1..]);
      assert days[0] == Some(values[0]);
      assert [values[0]] + values[1..] == values;
    }
  }

  /** The accepted values of the comma pieces, in order. */
  function PositiveParses(pieces: seq<string>): (values: seq<int>)
    ensures forall n :: n in values ==> n >= 1
  {
    Present(PieceDays(pieces))
  }

  /** A value is accepted exactly when some comma piece is accepted with that value. */
  lemma PositiveParsesMembers(pieces: seq<string>, n: int)
    ensures n in PositiveParses(pieces) <==> exists i :: 0 <= i < |pieces| && PieceDay(pieces[i]) == Some(n)
  {
    PresentMembers(PieceDays(pieces), n);
  }

  /** The list the constructor stores: empty for an empty input, otherwise the accepted
      pieces in input order. */
  function HolidayList(input: string): (days: seq<int>)
    ensures forall d :: d in days ==> d >= 1
    ensures input == "" ==> days == []
  {
    if input == "" then [] else PositiveParses(SplitOn(input, ','))
  }

  /** `getHolidays()`: the list as a set, so repeated numbers collapse. */
  function GetHolidays(input: string): (holidays: set<int>)
    ensures forall h :: h in holidays ==> h >= 1
    ensures input == "" ==> holidays == {}
    ensures |holidays| <= |HolidayList(input)|
  {
    SeqCardinality(HolidayList(input));
    set d | d in HolidayList(input)
  }

  lemma {:induction false} SeqCardinality(s: seq<int>)
    ensures |set d | d in s| <= |s|
  {
    if s != [] {
      SeqCardinality(s[1..]);
      assert (set d | d in s) == (set d | d in s[1..]) + {s[0]};
    }
  }

  /** A day number is a holiday exactly when some comma piece of a non-empty input is accepted
      with that value. */
  lemma HolidayMembership(input: string, n: int)
    ensures n in GetHolidays(input) <==>
              input != "" && exists i :: 0 <= i < |SplitOn(input, ',')| && PieceDay(SplitOn(input, ',')[i]) == Some(n)
  {
    if n in GetHolidays(input) {
      PieceOfHoliday(input, n);
    }
    if input != "" && exists i :: 0 <= i < |SplitOn(input, ',')| && PieceDay(SplitOn(input, ',')[i]) == Some(n) {
      HolidayOfPiece(input, n);
    }
  }

  lemma PieceOfHoliday(input: string, n: int)
    requires n in GetHolidays(input)
    ensures input != "" && exists i :: 0 <= i < |SplitOn(input, ',')| && PieceDay(SplitOn(input, ',')[i]) == Some(n)
  {
    var pieces := SplitOn(input, ',');
    assert n in PositiveParses(pieces);
    PositiveParsesMembers(pieces, n);
    var i :| 0 <= i < |pieces| && PieceDay(pieces[i]) == Some(n);
  }

  lemma HolidayOfPiece(input: string, n: int)
    requires input != "" && exists i :: 0 <= i < |SplitOn(input, ',')| && PieceDay(SplitOn(input, ',')[i]) == Some(n)
    ensures n in GetHolidays(input)
  {
    var pieces := SplitOn(input, ',');
    PositiveParsesMembers(pieces, n);
    assert n in PositiveParses(pieces);
  }

  lemma PieceDayOfNatToString(n: nat)
    requires n >= 1
    ensures PieceDay(NatToString(n)) == Some(n)
  {
    ParseIntOfNatToString(n);
  }

  /** A positive day number is accepted on its own (exactly, as integers are unbounded here). */
  lemma SingleHoliday(n: nat)
    requires n >= 1
    ensures GetHolidays(NatToString(n)) == {n}
  {
    SingleHolidayList(n);
  }

  lemma SingleHolidayList(n: nat)
    requires n >= 1
    ensures HolidayList(NatToString(n)) == [n]
  {
    var s := NatToString(n);
    assert ',' !in s by { assert AllDigits(s); }
    SplitOnFree(s, ',');
    PieceDayOfNatToString(n);
    assert PieceDays([s]) == [Some(n)];
    PresentAll([Some(n)], [n]);
  }

  /** The decimal renderings of day numbers, in order. */
  function Render(days: seq<nat>): (texts: seq<string>)
    ensures |texts| == |days|
    ensures forall i :: 0 <= i < |days| ==> texts[i] == NatToString(days[i])
  {
    if days == [] then [] else [NatToString(days[0])] + Render(days[1..])
  }

  lemma PositiveParsesOfRender(days: seq<nat>)
    requires forall i :: 0 <= i < |days| ==> days[i] >= 1
    ensures PositiveParses(Render(days)) == days
  {
    var texts := Render(days);
    forall i | 0 <= i < |days| ensures PieceDays(texts)[i] == Some(days[i] as int) {
      PieceDayOfNatToString(days[i]);
    }
    PresentAll(PieceDays(texts), days);
  }

  /** Writing positive day numbers as a comma-separated list and reading it back gives the same
      list, hence the same holiday set. */
  lemma HolidayListRoundTrip(days: seq<nat>)
    requires forall i :: 0 <= i < |days| ==> days[i] >= 1
    ensures HolidayList(JoinWith(Render(days), ',')) == days
    ensures GetHolidays(JoinWith(Render(days), ',')) == set d | d in days
  {
    var texts := Render(days);
    if days != [] {
      forall i | 0 <= i < |texts| ensures ',' !in texts[i] {
        assert AllDigits(texts[i]);
      }
      SplitJoin(texts, ',');
      PositiveParsesOfRender(days);
      assert JoinWith(texts, ',') != "" by {
        assert |texts[0]| > 0;
        if |texts| > 1 {
          assert JoinWith(texts, ',') == texts[0] + [','] + JoinWith(texts[1..], ',');
        }
      }
    }
  }
}

=== FILE: hours.dfy ===
/** `HourAllocator` (script.js:285-406): each employee's monthly quota is spread over the days
    they work, in three passes (Saturdays first, then a daily minimum, then random top-ups),
    and every worked day becomes a shift with a break, a start time and an end time.
    All amounts are in half-hour units; `Math.random` is the oracle `draw`, read at the
    positions `t, t + 1, ...`. */
module Hours {
  import opened Calendar
  import opened Text
  import opened Format
  import opened Roster

  /** The bounds on one day's hours. */
  datatype Tier = Tier(minHours: nat, maxHours: nat)

  /** script.js:307-317: below 60 hours a month 1 to 3 hours a day, below 105 hours 4 to 6, otherwise 6 to 8. */
  function TierFor(totalHours: nat): (tier: Tier)
    ensures 2 <= tier.minHours && tier.minHours + 4 == tier.maxHours <= 16
  {
    if totalHours < 120 then Tier(2, 6) else if totalHours < 210 then Tier(8, 12) else Tier(12, 16)
  }

  /** A larger quota never gets a lower tier. */
  lemma TierMonotone(smaller: nat, larger: nat)
    requires smaller <= larger
    ensures TierFor(smaller).minHours <= TierFor(larger).minHours
    ensures TierFor(smaller).maxHours <= TierFor(larger).maxHours
  {
  }

  /** The Saturday draw `random < 0.333 ? max : random < 0.666 ? max - 0.5 : max - 1`. */
  function SaturdayHours(tier: Tier, r: nat): (hours: nat)
    requires tier.maxHours >= 2
    ensures tier.maxHours - 2 <= hours <= tier.maxHours
  {
    if r % 3 == 0 then tier.maxHours else if r % 3 == 1 then tier.maxHours - 1 else tier.maxHours - 2
  }

  /** What a Saturday can end with: nothing, the daily minimum, or one of the Saturday draws. */
  predicate SaturdayAmount(hours: nat, tier: Tier) {
    hours == 0 || hours == tier.minHours || tier.maxHours - 2 <= hours <= tier.maxHours
  }

  /** The top-up loop's condition (script.js:348): hours remain and some non-Saturday day is
      below the daily maximum. */
  predicate TopUpGuard(dailyHours: seq<nat>, workDays: seq<Day>, maxHours: nat, remaining: nat)
    requires |dailyHours| == |workDays|
  {
    remaining > 0 &&
    exists i :: 0 <= i < |dailyHours| && dailyHours[i] < maxHours && workDays[i].weekday != Saturday
  }

  /** Adding `increment` to day `i` is accepted by the top-up loop. */
  predicate Acceptable(dailyHours: seq<nat>, workDays: seq<Day>, maxHours: nat, remaining: nat, i: int, increment: nat)
    requires |dailyHours| == |workDays|
  {
    0 <= i < |dailyHours| && workDays[i].weekday != Saturday && dailyHours[i] < maxHours &&
    (increment == 1 || increment == 2) && remaining >= increment && dailyHours[i] + increment <= maxHours
  }

  /** Some day can accept some increment. */
  predicate CanTopUp(dailyHours: seq<nat>, workDays: seq<Day>, maxHours: nat, remaining: nat)
    requires |dailyHours| == |workDays|
  {
    exists i, increment :: 0 <= i < |dailyHours| && 1 <= increment <= 2 &&
      Acceptable(dailyHours, workDays, maxHours, remaining, i, increment)
  }

  /** With amounts in whole half hours the loop's condition holds exactly when some day can
      accept an increment (half an hour, at least), so each round can make progress and the
      `break` at script.js:352 is never reached. */
  lemma TopUpGuardExact(dailyHours: seq<nat>, workDays: seq<Day>, maxHours: nat, remaining: nat)
    requires |dailyHours| == |workDays|
    ensures TopUpGuard(dailyHours, workDays, maxHours, remaining) <==> CanTopUp(dailyHours, workDays, maxHours, remaining)
  {
    if TopUpGuard(dailyHours, workDays, maxHours, remaining) {
      var i :| 0 <= i < |dailyHours| && dailyHours[i] < maxHours && workDays[i].weekday != Saturday;
      assert Acceptable(dailyHours, workDays, maxHours, remaining, i, 1);
    }
  }

  /** The indices of the days the top-up may pick, in ascending order (`eligibleIndices`). */
  function EligibleIndices(dailyHours: seq<nat>, workDays: seq<Day>, maxHours: nat): (eligible: seq<nat>)
    requires |dailyHours| == |workDays|
    ensures forall k: nat :: k in eligible <==> k < |dailyHours| && dailyHours[k] < maxHours && workDays[k].weekday != Saturday
  {
    if dailyHours == [] then []
    else
      var n := |dailyHours| - 1;
      EligibleIndices(dailyHours[..n], workDays[..n], maxHours) +
        (if dailyHours[n] < maxHours && workDays[n].weekday != Saturday then [n] else [])
  }

  /** The three passes of `allocate` for one employee. `fuel` bounds the rounds of the top-up
      loop, which the source runs without bound; `settled` tells whether the loop ended by its
      own condition, and `rounds` how many top-up rounds were run: all `fuel` of them when the
      loop did not settle. */
  method AllocateDailyHours(workDays: seq<Day>, totalHours: nat, draw: nat -> nat, t0: nat, fuel: nat)
    returns (dailyHours: seq<nat>, remainingHours: nat, settled: bool, rounds: nat, t: nat)
    ensures |dailyHours| == |workDays|
    ensures Sum(dailyHours) + remainingHours == totalHours
    ensures forall i :: 0 <= i < |dailyHours| ==> dailyHours[i] <= TierFor(totalHours).maxHours
    ensures forall i :: 0 <= i < |dailyHours| && workDays[i].weekday == Saturday ==>
              SaturdayAmount(dailyHours[i], TierFor(totalHours))
    ensures settled <==> !CanTopUp(dailyHours, workDays, TierFor(totalHours).maxHours, remainingHours)
    ensures settled ==>
              (remainingHours == 0 ||
               forall i :: 0 <= i < |dailyHours| && workDays[i].weekday != Saturday ==>
                 dailyHours[i] == TierFor(totalHours).maxHours)
    ensures forall i :: 0 <= i < |dailyHours| && dailyHours[i] == 0 ==> remainingHours < TierFor(totalHours).minHours
    ensures rounds <= fuel && (!settled ==> rounds == fuel)
    ensures t >= t0
  {
    var tier := TierFor(totalHours);
    var hours := new nat[|workDays|](_ => 0);
    assert Sum(hours[..]) == 0 by { ZeroSum(hours[..]); }
    var remaining;
    remaining, t := SaturdayPass(hours, workDays, tier, totalHours, draw, t0);
    remaining := MinimumPass(hours, workDays, tier, remaining);
    ghost var afterMinimum := hours[..];
    ghost var remainingAfterMinimum := remaining;
    remaining, t, rounds := TopUpPass(hours, workDays, tier.maxHours, remaining, draw, t, fuel);
    assert forall i :: 0 <= i < hours.Length && hours[i] == 0 ==> afterMinimum[i] == 0;
    dailyHours, remainingHours := hours[..], remaining;
    TopUpGuardExact(dailyHours, workDays, tier.maxHours, remainingHours);
    settled := !TopUpGuard(dailyHours, workDays, tier.maxHours, remainingHours);
  }

  /** First pass (script.js:325-335): every Saturday gets max, max - 0.5 or max - 1 hours, when
      that much is still left; a Saturday left without hours means less than the maximum was
      left when its turn came. */
  method SaturdayPass(hours: array<nat>, workDays: seq<Day>, tier: Tier, remaining0: nat, draw: nat -> nat, t0: nat)
    returns (remaining: nat, t: nat)
    modifies hours
    requires hours.Length == |workDays| && tier.maxHours >= 3
    requires forall k :: 0 <= k < hours.Length ==> hours[k] == 0
    ensures Sum(hours[..]) + remaining == old(Sum(hours[..])) + remaining0
    ensures remaining <= remaining0
    ensures forall k :: 0 <= k < hours.Length ==>
              if workDays[k].weekday == Saturday then hours[k] == 0 || tier.maxHours - 2 <= hours[k] <= tier.maxHours
              else hours[k] == 0
    ensures forall k :: 0 <= k < hours.Length && workDays[k].weekday == Saturday && hours[k] == 0 ==>
              remaining < tier.maxHours
    ensures t >= t0
  {
    remaining, t := remaining0, t0;
    for i := 0 to |workDays|
      invariant Sum(hours[..]) + remaining == old(Sum(hours[..])) + remaining0
      invariant remaining <= remaining0
      invariant forall k :: i <= k < hours.Length ==> hours[k] == 0
      invariant forall k :: 0 <= k < hours.Length ==>
                  if workDays[k].weekday == Saturday then hours[k] == 0 || tier.maxHours - 2 <= hours[k] <= tier.maxHours
                  else hours[k] == 0
      invariant forall k :: 0 <= k < i && workDays[k].weekday == Saturday && hours[k] == 0 ==>
                  remaining < tier.maxHours
      invariant t >= t0
    {
      if workDays[i].weekday == Saturday {
        var h := SaturdayHours(tier, draw(t));
        t := t + 1;
        if remaining >= h {
          SumUpdate(hours[..], i, h);
          hours[i] := h;
          remaining := remaining - h;
        }
      }
    }
  }

  /** Second pass (script.js:337-346): every day still at zero gets the daily minimum, when
      that much is still left; a day left at zero means less than the minimum is left. */
  method MinimumPass(hours: array<nat>, workDays: seq<Day>, tier: Tier, remaining0: nat) returns (remaining: nat)
    modifies hours
    requires hours.Length == |workDays| && tier.minHours <= tier.maxHours
    requires forall k :: 0 <= k < hours.Length ==> hours[k] <= tier.maxHours
    requires forall k :: 0 <= k < hours.Length && workDays[k].weekday == Saturday ==> SaturdayAmount(hours[k], tier)
    requires 0 < tier.minHours
    ensures Sum(hours[..]) + remaining == old(Sum(hours[..])) + remaining0
    ensures remaining <= remaining0
    ensures forall k :: 0 <= k < hours.Length ==> hours[k] <= tier.maxHours
    ensures forall k :: 0 <= k < hours.Length && workDays[k].weekday == Saturday ==> SaturdayAmount(hours[k], tier)
    ensures forall k :: 0 <= k < hours.Length ==> hours[k] == old(hours[k]) || (old(hours[k]) == 0 && hours[k] == tier.minHours)
    ensures forall k :: 0 <= k < hours.Length && hours[k] == 0 ==> remaining < tier.minHours
  {
    remaining := remaining0;
    for i := 0 to |workDays|
      invariant Sum(hours[..]) + remaining == old(Sum(hours[..])) + remaining0
      invariant remaining <= remaining0
      invariant forall k :: 0 <= k < i && hours[k] == 0 ==> remaining < tier.minHours
      invariant forall k :: 0 <= k < hours.Length ==> hours[k] <= tier.maxHours
      invariant forall k :: 0 <= k < hours.Length && workDays[k].weekday == Saturday ==> SaturdayAmount(hours[k], tier)
      invariant forall k :: 0 <= k < hours.Length ==> hours[k] == old(hours[k]) || (old(hours[k]) == 0 && hours[k] == tier.minHours)
    {
      if hours[i] == 0 {
        if remaining >= tier.minHours {
          SumUpdate(hours[..], i, tier.minHours);
          hours[i] := tier.minHours;
          remaining := remaining - tier.minHours;
        }
      }
    }
  }

  /** Third pass (script.js:348-361): while hours remain and a non-Saturday day is below the
      maximum, a random such day gets 0.5 or 1 hour more when both the remainder and the
      maximum allow it. At most `fuel` rounds are run, and the loop condition still holds at
      the end only when all of them were. The draws are free, so a run of rounds that all
      change nothing is allowed here too; what one round does is pinned by `GrantIncrement`,
      and when the pass stops early is pinned by `AllocateDailyHours`. */
  method TopUpPass(hours: array<nat>, workDays: seq<Day>, maxHours: nat, remaining0: nat, draw: nat -> nat, t0: nat, fuel: nat)
    returns (remaining: nat, t: nat, rounds: nat)
    modifies hours
    requires hours.Length == |workDays|
    requires forall k :: 0 <= k < hours.Length ==> hours[k] <= maxHours
    ensures Sum(hours[..]) + remaining == old(Sum(hours[..])) + remaining0
    ensures remaining <= remaining0
    ensures forall k :: 0 <= k < hours.Length ==> old(hours[k]) <= hours[k] <= maxHours
    ensures forall k :: 0 <= k < hours.Length && workDays[k].weekday == Saturday ==> hours[k] == old(hours[k])
    ensures rounds <= fuel && t == t0 + 2 * rounds
    ensures TopUpGuard(hours[..], workDays, maxHours, remaining) ==> rounds == fuel
  {
    remaining, t, rounds := remaining0, t0, 0;
    while TopUpGuard(hours[..], workDays, maxHours, remaining) && rounds < fuel
      invariant Sum(hours[..]) + remaining == old(Sum(hours[..])) + remaining0
      invariant remaining <= remaining0
      invariant rounds <= fuel && t == t0 + 2 * rounds
      invariant forall k :: 0 <= k < hours.Length ==> old(hours[k]) <= hours[k] <= maxHours
      invariant forall k :: 0 <= k < hours.Length && workDays[k].weekday == Saturday ==> hours[k] == old(hours[k])
      decreases fuel - rounds
    {
      var eligible := EligibleIndices(hours[..], workDays, maxHours);
      if |eligible| == 0 {
        break;
      }
      var index := eligible[draw(t) % |eligible|];
      assert index in eligible;
      var increment := if draw(t + 1) % 2 == 0 then 1 else 2;
      t := t + 2;
      remaining := GrantIncrement(hours, index, increment, maxHours, remaining);
      rounds := rounds + 1;
    }
  }

  /** The body of one top-up round (script.js:356-359): the chosen day gets `increment` when
      both the remainder and the daily maximum allow it; otherwise nothing changes. */
  method GrantIncrement(hours: array<nat>, index: nat, increment: nat, maxHours: nat, remaining0: nat)
    returns (remaining: nat)
    modifies hours
    requires index < hours.Length
    ensures Sum(hours[..]) + remaining == old(Sum(hours[..])) + remaining0
    ensures remaining0 >= increment && old(hours[index]) + increment <= maxHours ==>
      hours[..] == old(hours[..])[index := old(hours[index]) + increment] && remaining == remaining0 - increment
    ensures !(remaining0 >= increment && old(hours[index]) + increment <= maxHours) ==>
      hours[..] == old(hours[..]) && remaining == remaining0
  {
    remaining := remaining0;
    if remaining >= increment && hours[index] + increment <= maxHours {
      SumUpdate(hours[..], index, hours[index] + increment);
      hours[index] := hours[index] + increment;
      remaining := remaining - increment;
    }
  }

  /** One round of the top-up loop as written, on the source's real-valued hours
      (script.js:354-360): the chosen day gets `increment` only if both the remainder and the
      daily maximum allow it, otherwise nothing changes. */
  function TopUpRoundAsWritten(dailyHours: seq<real>, remaining: real, maxHours: real, index: nat, increment: real): (state: (seq<real>, real))
    requires index < |dailyHours|
    ensures |state.0| == |dailyHours|
    ensures state.0 == dailyHours <==> state.1 == remaining
  {
    if remaining >= increment && dailyHours[index] + increment <= maxHours
    then (dailyHours[index := dailyHours[index] + increment], remaining - increment)
    else (dailyHours, remaining)
  }

  /** The loop condition as written (script.js:348), on real-valued hours. */
  predicate TopUpGuardAsWritten(dailyHours: seq<real>, weekdays: seq<int>, maxHours: real, remaining: real)
    requires |dailyHours| == |weekdays|
  {
    remaining > 0.0 && exists i :: 0 <= i < |dailyHours| && dailyHours[i] < maxHours && weekdays[i] != Saturday
  }

  /** A quota that is not a multiple of half an hour can leave a remainder below half an hour
      while a Monday is still below the maximum: e.g. a 2.3-hour quota on a single Monday goes
      to 1 hour in the minimum pass, 2 hours after a 1-hour top-up, and then has 0.3 hours
      left. From that state the condition holds, every round leaves the state as it is, so
      the loop never ends. */
  lemma TopUpSpinsOnFraction(index: nat, increment: real)
    requires index < 1 && (increment == 0.5 || increment == 1.0)
    ensures TopUpGuardAsWritten([2.0], [Monday], 3.0, 0.3)
    ensures TopUpRoundAsWritten([2.0], 0.3, 3.0, index, increment) == ([2.0], 0.3)
  {
    assert [2.0][0] < 3.0 && [Monday][0] != Saturday;
  }

  lemma {:induction false} ZeroSum(amounts: seq<nat>)
    requires forall k :: 0 <= k < |amounts| ==> amounts[k] == 0
    ensures Sum(amounts) == 0
  {
    if amounts != [] {
      ZeroSum(amounts[..|amounts| - 1]);
    }
  }

  /** The break for a day's hours: half an hour for 4 or 4.5 hours, an hour from 5 hours on,
      none below 4 hours. */
  function BreakTime(hours: nat): (breakTime: nat)
    ensures breakTime <= 2
    ensures breakTime > 0 <==> hours >= 8
    ensures breakTime == 2 <==> hours >= 10
  {
    if hours == 8 || hours == 9 then 1 else if hours >= 10 then 2 else 0
  }

  /** `Math.floor(20 - (hours + breakTime))`, in whole hours. */
  function MaxStartHour(hours: nat, breakTime: nat): (h: int)
    ensures 2 * h <= 40 - (hours + breakTime) < 2 * h + 2
  {
    (40 - (hours + breakTime)) / 2
  }

  /** A shift that starts on the hour at 9:00 or later and whose end time is its start plus its
      hours plus its break, no later than 20:00. */
  predicate WellFormedShift(entry: ShiftEntry) {
    entry.hours > 0 && entry.breakTime == BreakTime(entry.hours) &&
    match (ClockMinutes(entry.startTime), ClockMinutes(entry.endTime))
    case (Some(start), Some(end)) =>
      9 * 60 <= start && start % 60 == 0 &&
      end == start + (entry.hours + entry.breakTime) * 30 && end <= 20 * 60
    case _ => false
  }

  /** One shift (script.js:366-397): the start hour is drawn from 9 to the latest start that
      still ends by 20:00, and the end is computed in minutes; the clamp to 20:00 never
      applies because the drawn start leaves room for the hours and the break. */
  function DeriveShift(day: int, hours: nat, r: nat): (entry: ShiftEntry)
    requires 0 < hours <= 16
    ensures entry.day == day && entry.hours == hours
    ensures WellFormedShift(entry)
    ensures ClockMinutes(entry.startTime).Some? &&
              9 <= ClockMinutes(entry.startTime).value / 60 <= MaxStartHour(hours, BreakTime(hours))
  {
    var breakTime := BreakTime(hours);
    var maxStartHour := MaxStartHour(hours, breakTime);
    assert 10 <= maxStartHour <= 19;
    var startHour: nat := 9 + r % (maxStartHour - 9 + 1);
    var totalMinutes := startHour * 60 + 0 + (hours + breakTime) * 30;
    var endHour := (totalMinutes / 60) % 24;
    var endMinutes := totalMinutes % 60;
    EndWithinDay(totalMinutes);
    var clamped := endHour > 20 || (endHour == 20 && endMinutes > 0);
    assert !clamped;
    var finalHour := if clamped then 20 else endHour;
    var finalMinutes := if clamped then 0 else endMinutes;
    assert finalHour == endHour && finalMinutes == endMinutes;
    var startTime := StartTimeText(startHour);
    var endTime := EndTimeText(finalHour, finalMinutes);
    assert ClockMinutes(startTime) == Some(startHour * 60) && (startHour * 60) / 60 == startHour;
    ShiftEntry(day, startTime, endTime, breakTime, hours)
  }

  /** An end no later than 20:00 splits into its hour and minutes without wrapping past
      midnight, and is not clamped. */
  lemma EndWithinDay(totalMinutes: nat)
    requires totalMinutes <= 20 * 60
    ensures (totalMinutes / 60) % 24 == totalMinutes / 60 <= 20
    ensures (totalMinutes / 60) * 60 + totalMinutes % 60 == totalMinutes
    ensures totalMinutes / 60 == 20 ==> totalMinutes % 60 == 0
  {
  }

  /** The (day, hours) pairs of the days given hours, in order. */
  function WorkedPairs(workDays: seq<Day>, dailyHours: seq<nat>): seq<(int, nat)>
    requires |dailyHours| == |workDays|
  {
    if workDays == [] then []
    else
      var n := |workDays| - 1;
      WorkedPairs(workDays[..n], dailyHours[..n]) +
        (if dailyHours[n] > 0 then [(workDays[n].day, dailyHours[n])] else [])
  }

  /** The (day, hours) pairs of a schedule, in order. */
  function Pairs(schedule: seq<ShiftEntry>): seq<(int, nat)> {
    if schedule == [] then []
    else Pairs(schedule[..|schedule| - 1]) + [(schedule[|schedule| - 1].day, schedule[|schedule| - 1].hours)]
  }

  lemma {:induction false} PairsIndex(schedule: seq<ShiftEntry>)
    ensures |Pairs(schedule)| == |schedule|
    ensures forall k :: 0 <= k < |schedule| ==> Pairs(schedule)[k] == (schedule[k].day, schedule[k].hours)
  {
    if schedule != [] {
      PairsIndex(schedule[..|schedule| - 1]);
    }
  }

  /** The last `forEach` of `allocate`: one entry per day with hours, in day order. */
  method BuildShifts(workDays: seq<Day>, dailyHours: seq<nat>, draw: nat -> nat, t0: nat)
    returns (schedule: seq<ShiftEntry>, t: nat)
    requires |dailyHours| == |workDays|
    requires forall i :: 0 <= i < |dailyHours| ==> dailyHours[i] <= 16
    ensures Pairs(schedule) == WorkedPairs(workDays, dailyHours)
    ensures ScheduledHours(schedule) == Sum(dailyHours)
    ensures forall k :: 0 <= k < |schedule| ==> WellFormedShift(schedule[k])
    ensures t >= t0
  {
    schedule, t := [], t0;
    for i := 0 to |workDays|
      invariant Pairs(schedule) == WorkedPairs(workDays[..i], dailyHours[..i])
      invariant ScheduledHours(schedule) == Sum(dailyHours[..i])
      invariant forall k :: 0 <= k < |schedule| ==> WellFormedShift(schedule[k])
      invariant t >= t0
    {
      var hours := dailyHours[i];
      if hours == 0 {
        ShiftSkip(workDays, dailyHours, i, schedule);
        continue;
      }
      var entry := DeriveShift(workDays[i].day, hours, draw(t));
      t := t + 1;
      ShiftAdd(workDays, dailyHours, i, schedule, entry);
      AppendWellFormed(schedule, entry);
      schedule := schedule + [entry];
    }
    assert workDays[..|workDays|] == workDays;
    assert dailyHours[..|dailyHours|] == dailyHours;
  }

  lemma AppendWellFormed(schedule: seq<ShiftEntry>, entry: ShiftEntry)
    requires forall k :: 0 <= k < |schedule| ==> WellFormedShift(schedule[k])
    requires WellFormedShift(entry)
    ensures forall k :: 0 <= k < |schedule + [entry]| ==> WellFormedShift((schedule + [entry])[k])
  {
    forall k | 0 <= k < |schedule + [entry]| ensures WellFormedShift((schedule + [entry])[k]) {
      if k < |schedule| {
        assert (schedule + [entry])[k] == schedule[k];
      }
    }
  }

  /** A day without hours adds no shift. */
  lemma ShiftSkip(workDays: seq<Day>, dailyHours: seq<nat>, i: nat, schedule: seq<ShiftEntry>)
    requires |dailyHours| == |workDays| && i < |workDays| && dailyHours[i] == 0
    requires Pairs(schedule) == WorkedPairs(workDays[..i], dailyHours[..i])
    requires ScheduledHours(schedule) == Sum(dailyHours[..i])
    ensures Pairs(schedule) == WorkedPairs(workDays[..i + 1], dailyHours[..i + 1])
    ensures ScheduledHours(schedule) == Sum(dailyHours[..i + 1])
  {
    assert workDays[..i + 1][..i] == workDays[..i];
    assert dailyHours[..i + 1][..i] == dailyHours[..i];
  }

  /** A day with hours adds one shift with its day and hours at the end. */
  lemma ShiftAdd(workDays: seq<Day>, dailyHours: seq<nat>, i: nat, schedule: seq<ShiftEntry>, entry: ShiftEntry)
    requires |dailyHours| == |workDays| && i < |workDays| && dailyHours[i] > 0
    requires entry.day == workDays[i].day && entry.hours == dailyHours[i]
    requires Pairs(schedule) == WorkedPairs(workDays[..i], dailyHours[..i])
    requires ScheduledHours(schedule) == Sum(dailyHours[..i])
    ensures Pairs(schedule + [entry]) == WorkedPairs(workDays[..i + 1], dailyHours[..i + 1])
    ensures ScheduledHours(schedule + [entry]) == Sum(dailyHours[..i + 1])
  {
    assert workDays[..i + 1][..i] == workDays[..i];
    assert dailyHours[..i + 1][..i] == dailyHours[..i];
    assert (schedule + [entry])[..|schedule|] == schedule;
  }

  /** The pairs are exactly the days with hours, and they keep the order of the days. */
  lemma {:induction false} WorkedPairsFacts(workDays: seq<Day>, dailyHours: seq<nat>)
    requires |dailyHours| == |workDays|
    ensures forall x :: x in WorkedPairs(workDays, dailyHours) <==>
              exists j :: 0 <= j < |workDays| && x == (workDays[j].day, dailyHours[j]) && dailyHours[j] > 0
    ensures Ascending(workDays) ==>
              forall k, l :: 0 <= k < l < |WorkedPairs(workDays, dailyHours)| ==>
                WorkedPairs(workDays, dailyHours)[k].0 < WorkedPairs(workDays, dailyHours)[l].0
    decreases |workDays|
  {
    if workDays != [] {
      var n := |workDays| - 1;
      var init, initHours := workDays[..n], dailyHours[..n];
      WorkedPairsFacts(init, initHours);
      var pairs := WorkedPairs(workDays, dailyHours);
      forall x | x in pairs
        ensures exists j :: 0 <= j < |workDays| && x == (workDays[j].day, dailyHours[j]) && dailyHours[j] > 0
      {
        if x in WorkedPairs(init, initHours) {
          var j :| 0 <= j < n && x == (init[j].day, initHours[j]) && initHours[j] > 0;
          assert workDays[j] == init[j] && dailyHours[j] == initHours[j];
        }
      }
      forall x | exists j :: 0 <= j < |workDays| && x == (workDays[j].day, dailyHours[j]) && dailyHours[j] > 0
        ensures x in pairs
      {
        var j :| 0 <= j < |workDays| && x == (workDays[j].day, dailyHours[j]) && dailyHours[j] > 0;
        if j < n {
          assert x == (init[j].day, initHours[j]);
        }
      }
      if Ascending(workDays) {
        assert Ascending(init);
        forall k, l | 0 <= k < l < |pairs| ensures pairs[k].0 < pairs[l].0 {
          var m := |WorkedPairs(init, initHours)|;
          if l >= m {
            assert pairs[k] in WorkedPairs(init, initHours);
            var j :| 0 <= j < n && pairs[k] == (init[j].day, initHours[j]) && initHours[j] > 0;
          }
        }
      }
    }
  }

  /** Strictly increasing day numbers. */
  predicate Ascending(days: seq<Day>) {
    forall i, j :: 0 <= i < j < |days| ==> days[i].day < days[j].day
  }

  /** `this.days.filter(day => !employee.restDays.has(day.day))`, each day kept with its weekday
      as `workDaysWithWeekday` pairs them. */
  function WorkDays(days: seq<Day>, restDays: set<int>): (workDays: seq<Day>)
    ensures forall d :: d in workDays <==> d in days && d.day !in restDays
    ensures Ascending(days) ==> Ascending(workDays)
  {
    if days == [] then []
    else
      var rest := WorkDays(days[1..], restDays);
      assert Ascending(days) ==> forall d :: d in rest ==> days[0].day < d.day;
      if days[0].day in restDays then rest else [days[0]] + rest
  }

  /** What `allocate` leaves in one employee's schedule: well-formed shifts on days of the
      month that are not rest days, in increasing day order, each within the tier's maximum,
      Saturdays only with a Saturday amount, and no more hours in total than the quota. */
  predicate ScheduleFits(schedule: seq<ShiftEntry>, days: seq<Day>, restDays: set<int>, totalHours: nat) {
    (forall k :: 0 <= k < |schedule| ==>
       WellFormedShift(schedule[k]) && schedule[k].hours <= TierFor(totalHours).maxHours &&
       schedule[k].day in DayNumbers(days) && schedule[k].day !in restDays) &&
    (forall k, d :: 0 <= k < |schedule| && d in days && d.day == schedule[k].day && d.weekday == Saturday ==>
       SaturdayAmount(schedule[k].hours, TierFor(totalHours))) &&
    (forall k, l :: 0 <= k < l < |schedule| ==> schedule[k].day < schedule[l].day) &&
    ScheduledHours(schedule) <= totalHours
  }

  /** A work day (neither a rest day nor otherwise excluded) without a shift means that less
      than the daily minimum of the quota was left unscheduled. */
  predicate EmptyOnlyWhenShort(schedule: seq<ShiftEntry>, days: seq<Day>, restDays: set<int>, totalHours: nat) {
    forall d :: d in days && d.day !in restDays && (forall k :: 0 <= k < |schedule| ==> schedule[k].day != d.day) ==>
      totalHours < ScheduledHours(schedule) + TierFor(totalHours).minHours
  }

  /** The quota is spread in full, or every work day but the Saturdays has the daily maximum. */
  predicate QuotaSpread(schedule: seq<ShiftEntry>, days: seq<Day>, restDays: set<int>, totalHours: nat) {
    ScheduledHours(schedule) == totalHours ||
    forall d :: d in days && d.day !in restDays && d.weekday != Saturday ==>
      exists k :: 0 <= k < |schedule| && schedule[k].day == d.day && schedule[k].hours == TierFor(totalHours).maxHours
  }

  /** Everything `AllocateFor` promises about one employee's schedule, given whether the top-up
      loop settled (`done`) and how many of its `fuel` rounds ran (`ran`). */
  predicate Allocated(schedule: seq<ShiftEntry>, days: seq<Day>, restDays: set<int>, totalHours: nat,
                      done: bool, ran: nat, fuel: nat) {
    ScheduleFits(schedule, days, restDays, totalHours) &&
    ((forall d :: d in days ==> d.day in restDays) ==> schedule == []) &&
    EmptyOnlyWhenShort(schedule, days, restDays, totalHours) &&
    (done ==> QuotaSpread(schedule, days, restDays, totalHours)) &&
    ran <= fuel && (!done ==> ran == fuel)
  }

  /** The work for one employee in `allocate` (script.js:294-399). `settled` tells whether the
      top-up loop ended by its own condition; when it did not, all `fuel` rounds were run. */
  method AllocateFor(days: seq<Day>, restDays: set<int>, totalHours: nat, draw: nat -> nat, t0: nat, fuel: nat)
    returns (schedule: seq<ShiftEntry>, settled: bool, rounds: nat, t: nat)
    requires IsMonth(days)
    ensures ScheduleFits(schedule, days, restDays, totalHours)
    ensures (forall d :: d in days ==> d.day in restDays) ==> schedule == []
    ensures EmptyOnlyWhenShort(schedule, days, restDays, totalHours)
    ensures settled ==> QuotaSpread(schedule, days, restDays, totalHours)
    ensures rounds <= fuel && (!settled ==> rounds == fuel)
    ensures t >= t0
  {
    t := t0;
    var workDays := WorkDays(days, restDays);
    if |workDays| == 0 {
      assert forall d :: d in days ==> d.day in restDays by {
        forall d | d in days ensures d.day in restDays {
          assert d !in workDays;
        }
      }
      return [], true, 0, t;
    }
    var dailyHours, remainingHours;
    dailyHours, remainingHours, settled, rounds, t := AllocateDailyHours(workDays, totalHours, draw, t, fuel);
    schedule, t := BuildShifts(workDays, dailyHours, draw, t);
    ShiftsFit(days, restDays, totalHours, workDays, dailyHours, schedule);
    ShortWhenEmpty(days, restDays, totalHours, workDays, dailyHours, remainingHours, schedule);
    if settled && remainingHours != 0 {
      MaximumEverywhere(days, restDays, totalHours, workDays, dailyHours, schedule);
    }
  }

  /** A work day without a shift was given no hours, which leaves less than the minimum. */
  lemma ShortWhenEmpty(days: seq<Day>, restDays: set<int>, totalHours: nat, workDays: seq<Day>,
                       dailyHours: seq<nat>, remainingHours: nat, schedule: seq<ShiftEntry>)
    requires workDays == WorkDays(days, restDays) && |dailyHours| == |workDays|
    requires Sum(dailyHours) + remainingHours == totalHours && ScheduledHours(schedule) == Sum(dailyHours)
    requires forall i :: 0 <= i < |dailyHours| && dailyHours[i] == 0 ==> remainingHours < TierFor(totalHours).minHours
    requires Pairs(schedule) == WorkedPairs(workDays, dailyHours)
    ensures EmptyOnlyWhenShort(schedule, days, restDays, totalHours)
  {
    PairsIndex(schedule);
    forall d | d in days && d.day !in restDays && (forall k :: 0 <= k < |schedule| ==> schedule[k].day != d.day)
      ensures totalHours < ScheduledHours(schedule) + TierFor(totalHours).minHours
    {
      assert d in workDays;
      var j :| 0 <= j < |workDays| && workDays[j] == d;
      WorkedDayListed(workDays, dailyHours, j);
      assert dailyHours[j] == 0;
    }
  }

  /** With every non-Saturday day at the maximum, every such work day has a shift of the maximum. */
  lemma MaximumEverywhere(days: seq<Day>, restDays: set<int>, totalHours: nat, workDays: seq<Day>,
                          dailyHours: seq<nat>, schedule: seq<ShiftEntry>)
    requires workDays == WorkDays(days, restDays) && |dailyHours| == |workDays|
    requires forall i :: 0 <= i < |dailyHours| && workDays[i].weekday != Saturday ==>
               dailyHours[i] == TierFor(totalHours).maxHours
    requires Pairs(schedule) == WorkedPairs(workDays, dailyHours)
    ensures QuotaSpread(schedule, days, restDays, totalHours)
  {
    PairsIndex(schedule);
    forall d | d in days && d.day !in restDays && d.weekday != Saturday
      ensures exists k :: 0 <= k < |schedule| && schedule[k].day == d.day && schedule[k].hours == TierFor(totalHours).maxHours
    {
      assert d in workDays;
      var j :| 0 <= j < |workDays| && workDays[j] == d;
      WorkedDayListed(workDays, dailyHours, j);
      assert dailyHours[j] > 0;
    }
  }

  /** A day given hours is listed among the worked pairs. */
  lemma WorkedDayListed(workDays: seq<Day>, dailyHours: seq<nat>, j: nat)
    requires |dailyHours| == |workDays| && j < |workDays|
    ensures dailyHours[j] > 0 ==> (workDays[j].day, dailyHours[j]) in WorkedPairs(workDays, dailyHours)
  {
    WorkedPairsFacts(workDays, dailyHours);
  }

  /** The shifts built from the allocated hours fit the month, the rest days and the tier. */
  lemma ShiftsFit(days: seq<Day>, restDays: set<int>, totalHours: nat, workDays: seq<Day>, dailyHours: seq<nat>,
                  schedule: seq<ShiftEntry>)
    requires IsMonth(days) && workDays == WorkDays(days, restDays) && |dailyHours| == |workDays|
    requires forall i :: 0 <= i < |dailyHours| ==> dailyHours[i] <= TierFor(totalHours).maxHours
    requires forall i :: 0 <= i < |dailyHours| && workDays[i].weekday == Saturday ==>
               SaturdayAmount(dailyHours[i], TierFor(totalHours))
    requires Pairs(schedule) == WorkedPairs(workDays, dailyHours)
    requires forall k :: 0 <= k < |schedule| ==> WellFormedShift(schedule[k])
    requires ScheduledHours(schedule) <= totalHours
    ensures ScheduleFits(schedule, days, restDays, totalHours)
  {
    WorkedPairsFacts(workDays, dailyHours);
    PairsIndex(schedule);
    MonthDaysDistinct(days);
    var tier := TierFor(totalHours);
    forall k | 0 <= k < |schedule|
      ensures schedule[k].hours <= tier.maxHours && schedule[k].day in DayNumbers(days) && schedule[k].day !in restDays
      ensures forall d :: d in days && d.day == schedule[k].day && d.weekday == Saturday ==> SaturdayAmount(schedule[k].hours, tier)
    {
      assert Pairs(schedule)[k] in WorkedPairs(workDays, dailyHours);
      var j :| 0 <= j < |workDays| && Pairs(schedule)[k] == (workDays[j].day, dailyHours[j]) && dailyHours[j] > 0;
      SameDay(days, workDays[j]);
    }
    forall k, l | 0 <= k < l < |schedule| ensures schedule[k].day < schedule[l].day {
      assert Pairs(schedule)[k].0 < Pairs(schedule)[l].0;
    }
  }

  /** In a month a day number names one day. */
  lemma SameDay(days: seq<Day>, d0: Day)
    requires IsMonth(days) && d0 in days
    ensures d0.day in DayNumbers(days)
    ensures forall d :: d in days && d.day == d0.day ==> d == d0
  {
  }
}

/** `HourAllocator` itself: the employees and the month it was built with. */
module Allocation {
  import opened Calendar
  import opened Roster
  import opened Hours

  class HourAllocator {
    const employees: seq<Employee>
    const days: seq<Day>

    constructor (employees: seq<Employee>, days: seq<Day>)
      ensures this.employees == employees && this.days == days
    {
      this.employees := employees;
      this.days := days;
    }

    /** `allocate` (script.js:291-405): every employee's schedule is rebuilt from their rest
        days and quota; nothing else about any employee changes. A work day is left without a
        shift only when less than the daily minimum remained, and for every employee whose
        top-up loop ended (`settled`) the whole quota is scheduled or every work day but the
        Saturdays has the daily maximum; any other employee's loop ran all `fuel` rounds. */
    method Allocate(draw: nat -> nat, t0: nat, fuel: nat) returns (t: nat, ghost settled: seq<bool>, ghost rounds: seq<nat>)
      requires IsMonth(days) && Distinct(employees)
      modifies employees
      ensures forall e :: e in employees ==> e.restDays == old(e.restDays)
      ensures |settled| == |employees| && |rounds| == |employees|
      ensures forall k :: 0 <= k < |employees| ==>
                Allocated(employees[k].schedule, days, employees[k].restDays, employees[k].totalHours,
                          settled[k], rounds[k], fuel)
    {
      t, settled, rounds := t0, [], [];
      for i := 0 to |employees|
        invariant forall e :: e in employees ==> e.restDays == old(e.restDays)
        invariant |settled| == i && |rounds| == i
        invariant forall k :: 0 <= k < i ==>
                    Allocated(employees[k].schedule, days, employees[k].restDays, employees[k].totalHours,
                              settled[k], rounds[k], fuel)
      {
        var employee := employees[i];
        var schedule, done, ran;
        schedule, done, ran, t := AllocateFor(days, employee.restDays, employee.totalHours, draw, t, fuel);
        employee.schedule := schedule;
        settled, rounds := settled + [done], rounds + [ran];
      }
    }
  }
}

=== FILE: roster.dfy ===
/** The employee record the engines share (built by `EmployeeManager.loadEmployees`,
    script.js:57-69) and the shift entries of its schedule. Hours and breaks are counted in
    half-hour units throughout: `hours == 9` is 4.5 hours. */
module Roster {

  /** `{ day, startTime, endTime, breakTime, hours }` as `HourAllocator.allocate` pushes it. */
  datatype ShiftEntry = ShiftEntry(day: int, startTime: string, endTime: string, breakTime: nat, hours: nat)

  class Employee {
    const name: string
    /** The monthly quota, in half hours. */
    const totalHours: nat
    /** The fixed weekly rest weekdays (1 = Monday ... 5 = Friday, from the check boxes). */
    const fixedRestDays: set<int>
    var restDays: set<int>
    var schedule: seq<ShiftEntry>

    /** `loadEmployees` keeps a row only when its name is non-empty and its hours positive; the
        rest days and schedule come from storage or start empty. */
    constructor (name: string, totalHours: nat, fixedRestDays: set<int>, restDays: set<int>, schedule: seq<ShiftEntry>)
      requires name != "" && totalHours > 0
      ensures this.name == name && this.totalHours == totalHours && this.fixedRestDays == fixedRestDays
      ensures this.restDays == restDays && this.schedule == schedule
    {
      this.name := name;
      this.totalHours := totalHours;
      this.fixedRestDays := fixedRestDays;
      this.restDays := restDays;
      this.schedule := schedule;
    }
  }

  /** No employee object occurs twice in the list. */
  predicate Distinct(employees: seq<Employee>) {
    forall i, j :: 0 <= i < j < |employees| ==> employees[i] != employees[j]
  }

  /** `schedule.filter(s => !restDays.has(s.day))`: the entries not on a rest day, in order. */
  function WithoutRestDays(schedule: seq<ShiftEntry>, restDays: set<int>): (kept: seq<ShiftEntry>)
    ensures |kept| <= |schedule|
    ensures forall s :: s in kept <==> s in schedule && s.day !in restDays
  {
    if schedule == [] then []
    else
      var rest := WithoutRestDays(schedule[1..], restDays);
      if schedule[0].day in restDays then rest else [schedule[0]] + rest
  }

  /** Filtering by two sets of rest days one after the other is filtering by their union; in
      particular filtering twice by the same set changes nothing more. */
  lemma {:induction false} WithoutRestDaysTwice(schedule: seq<ShiftEntry>, first: set<int>, second: set<int>)
    ensures WithoutRestDays(WithoutRestDays(schedule, first), second) == WithoutRestDays(schedule, first + second)
  {
    if schedule != [] {
      WithoutRestDaysTwice(schedule[1..], first, second);
    }
  }

  /** The total of a list of half-hour amounts. */
  function Sum(amounts: seq<nat>): nat {
    if amounts == [] then 0 else Sum(amounts[..|amounts| - 1]) + amounts[|amounts| - 1]
  }

  lemma {:induction false} SumUpdate(amounts: seq<nat>, i: nat, v: nat)
    requires i < |amounts|
    ensures Sum(amounts[i := v]) + amounts[i] == Sum(amounts) + v
    decreases |amounts|
  {
    var n := |amounts|;
    if i < n - 1 {
      assert amounts[i := v][..n - 1] == amounts[..n - 1][i := v];
      SumUpdate(amounts[..n - 1], i, v);
    } else {
      assert amounts[i := v][..n - 1] == amounts[..n - 1];
    }
  }

  /** The hours of a schedule, added up. */
  function ScheduledHours(schedule: seq<ShiftEntry>): nat {
    if schedule == [] then 0 else ScheduledHours(schedule[..|schedule| - 1]) + schedule[|schedule| - 1].hours
  }
}

=== FILE: text.dfy ===
/** Character-level helpers shared by the holiday parser and the display formatters:
    JavaScript's decimal rendering of a non-negative integer, `parseInt(s, 10)`,
    `String.prototype.trim` and `String.prototype.split` with a one-character separator. */
module Text {

  datatype Option<T> = None | Some(value: T)

  predicate IsDigit(c: char) { '0' <= c <= '9' }

  predicate AllDigits(s: string) { forall i :: 0 <= i < |s| ==> IsDigit(s[i]) }

  function DigitChar(d: nat): (c: char)
    requires d < 10
    ensures IsDigit(c)
  {
    ('0' as int + d) as char
  }

  function DigitValue(c: char): (d: nat)
    requires IsDigit(c)
    ensures d < 10 && DigitChar(d) == c
  {
    c as int - '0' as int
  }

  /** `String(n)` for a non-negative integer Number: plain decimal, no leading zero. */
  function NatToString(n: nat): (s: string)
    ensures |s| > 0 && AllDigits(s)
    ensures n < 10 <==> |s| == 1
    ensures n >= 10 ==> s[0] != '0'
    decreases n
  {
    if n < 10 then [DigitChar(n)] else NatToString(n / 10) + [DigitChar(n % 10)]
  }

  /** The value of a string of decimal digits, most significant first. */
  function DigitsValue(s: string): nat
    requires AllDigits(s)
  {
    if s == [] then 0 else DigitsValue(s[..|s| - 1]) * 10 + DigitValue(s[|s| - 1])
  }

  lemma {:induction false} DigitsValueOfNatToString(n: nat)
    ensures DigitsValue(NatToString(n)) == n
    decreases n
  {
    if n >= 10 {
      var s := NatToString(n);
      assert s[..|s| - 1] == NatToString(n / 10);
      DigitsValueOfNatToString(n / 10);
    }
  }

  /** The longest prefix of `s` made of decimal digits. */
  function LeadingDigits(s: string): (p: string)
    ensures |p| <= |s| && p == s[..|p|] && AllDigits(p)
    ensures |p| == |s| || !IsDigit(s[|p|])
  {
    if s != [] && IsDigit(s[0]) then [s[0]] + LeadingDigits(s[1..]) else []
  }

  lemma {:induction false} LeadingDigitsOfDigits(s: string, rest: string)
    requires AllDigits(s)
    requires rest == [] || !IsDigit(rest[0])
    ensures LeadingDigits(s + rest) == s
    decreases |s|
  {
    if s != [] {
      assert (s + rest)[1..] == s[1..] + rest;
      LeadingDigitsOfDigits(s[1..], rest);
    }
  }

  /** The characters ECMAScript treats as white space or line terminators. */
  predicate IsWhiteSpace(c: char) {
    c == '\t' || c == '\n' || c == '\U{B}' || c == '\U{C}' || c == '\r' || c == ' ' ||
    c == '\U{A0}' || c == '\U{1680}' || ('\U{2000}' <= c <= '\U{200A}') ||
    c == '\U{2028}' || c == '\U{2029}' || c == '\U{202F}' || c == '\U{205F}' ||
    c == '\U{3000}' || c == '\U{FEFF}'
  }

  function TrimStart(s: string): (r: string)
    ensures |r| <= |s| && r == s[|s| - |r|..]
    ensures r == [] || !IsWhiteSpace(r[0])
    ensures forall i :: 0 <= i < |s| - |r| ==> IsWhiteSpace(s[i])
  {
    if s != [] && IsWhiteSpace(s[0]) then TrimStart(s[1..]) else s
  }

  function TrimEnd(s: string): (r: string)
    ensures |r| <= |s| && r == s[..|r|]
    ensures r == [] || !IsWhiteSpace(r[|r| - 1])
    ensures forall i :: |r| <= i < |s| ==> IsWhiteSpace(s[i])
  {
    if s != [] && IsWhiteSpace(s[|s| - 1]) then TrimEnd(s[..|s| - 1]) else s
  }

  /** `s.trim()`: white space dropped at both ends. */
  function Trim(s: string): (r: string)
    ensures |r| <= |s|
    ensures r == [] || (!IsWhiteSpace(r[0]) && !IsWhiteSpace(r[|r| - 1]))
  {
    TrimEnd(TrimStart(s))
  }

  /** What `s.trim()` keeps: one contiguous slice of `s`, with only white space before and
      after it. */
  lemma TrimSlice(s: string) returns (i: nat, j: nat)
    ensures i <= j <= |s| && Trim(s) == s[i..j]
    ensures forall k :: 0 <= k < i ==> IsWhiteSpace(s[k])
    ensures forall k :: j <= k < |s| ==> IsWhiteSpace(s[k])
  {
    var a := TrimStart(s);
    var r := TrimEnd(a);
    i := |s| - |a|;
    j := i + |r|;
    PrefixOfSuffix(s, a, r);
  }

  /** A prefix `r` of a suffix `a` of `s` is a slice of `s`, and what follows `r` in `s` is
      what follows it in `a`. */
  lemma PrefixOfSuffix(s: string, a: string, r: string)
    requires |a| <= |s| && a == s[|s| - |a|..] && |r| <= |a| && r == a[..|r|]
    ensures r == s[|s| - |a|..|s| - |a| + |r|]
    ensures forall k :: |s| - |a| + |r| <= k < |s| ==> s[k] == a[k - (|s| - |a|)]
  {
  }

  /** `parseInt(s, 10)`: leading white space is skipped, an optional sign is read, then the
      longest run of decimal digits; `None` stands for NaN (no digit at all). */
  function ParseInt(s: string): (r: Option<int>)
    ensures r.None? <==> LeadingDigits(SignFree(TrimStart(s))) == []
  {
    var t := TrimStart(s);
    var digits := LeadingDigits(SignFree(t));
    var magnitude: int := if digits == [] then 0 else DigitsValue(digits);
    if digits == [] then None
    else if t[0] == '-' then Some(-magnitude)
    else Some(magnitude)
  }

  /** `s` without one leading `+` or `-`. */
  function SignFree(s: string): string {
    if s != [] && (s[0] == '-' || s[0] == '+') then s[1..] else s
  }

  lemma TrimOfDigits(s: string)
    requires s != [] && AllDigits(s)
    ensures TrimStart(s) == s && Trim(s) == s
  {
    assert !IsWhiteSpace(s[0]);
    assert TrimStart(s) == s;
    assert !IsWhiteSpace(s[|s| - 1]);
    assert TrimEnd(s) == s;
  }

  /** Decimal rendering and `parseInt` are inverse on the non-negative integers. */
  lemma ParseIntOfNatToString(n: nat)
    ensures ParseInt(NatToString(n)) == Some(n)
    ensures ParseInt(Trim(NatToString(n))) == Some(n)
  {
    var s := NatToString(n);
    TrimOfDigits(s);
    assert SignFree(s) == s;
    LeadingDigitsOfDigits(s, []);
    assert s + [] == s;
    DigitsValueOfNatToString(n);
    assert ParseInt(s) == Some(n);
  }

  /** `s.split(c)` for a one-character separator `c`: the pieces between separators, in order,
      empty pieces included; the empty string splits into one empty piece. */
  function SplitOn(s: string, c: char): (parts: seq<string>)
    ensures |parts| >= 1
    ensures forall i :: 0 <= i < |parts| ==> c !in parts[i]
    decreases |s|
  {
    if s == [] then [[]]
    else
      var rest := SplitOn(s[1..], c);
      if s[0] == c then [[]] + rest else [[s[0]] + rest[0]] + rest[1..]
  }

  /** `parts.join(c)`. */
  function JoinWith(parts: seq<string>, c: char): string {
    if parts == [] then []
    else if |parts| == 1 then parts[0]
    else parts[0] + [c] + JoinWith(parts[1..], c)
  }

  /** Joining the pieces of a split gives back the original string. */
  lemma {:induction false} JoinSplit(s: string, c: char)
    ensures JoinWith(SplitOn(s, c), c) == s
    decreases |s|
  {
    if s != [] {
      var rest := SplitOn(s[1..], c);
      JoinSplit(s[1..], c);
      if s[0] == c {
        assert SplitOn(s, c) == [[]] + rest;
        assert JoinWith([[]] + rest, c) == [] + [c] + JoinWith(rest, c);
        assert s == [c] + s[1..];
      } else if |rest| == 1 {
        assert SplitOn(s, c) == [[s[0]] + rest[0]];
        assert s == [s[0]] + s[1..];
      } else {
        var parts := [[s[0]] + rest[0]] + rest[1..];
        assert SplitOn(s, c) == parts;
        assert parts[1..] == rest[1..];
        assert JoinWith(rest, c) == rest[0] + [c] + JoinWith(rest[1..], c);
        assert s == [s[0]] + s[1..];
      }
    }
  }

  lemma {:induction false} SplitOnSeparated(a: string, c: char, b: string)
    requires c !in a
    ensures SplitOn(a + [c] + b, c) == [a] + SplitOn(b, c)
    decreases |a|
  {
    var s := a + [c] + b;
    if a == [] {
      assert s[0] == c && s[1..] == b;
    } else {
      assert s[0] == a[0] && s[0] != c;
      assert s[1..] == a[1..] + [c] + b;
      SplitOnSeparated(a[1..], c, b);
      assert [a[0]] + a[1..] == a;
    }
  }

  lemma {:induction false} SplitOnFree(a: string, c: char)
    requires c !in a
    ensures SplitOn(a, c) == [a]
    decreases |a|
  {
    if a != [] {
      SplitOnFree(a[1..], c);
      assert [a[0]] + a[1..] == a;
    }
  }

  /** Splitting a join gives back the pieces, provided none of them holds the separator. */
  lemma {:induction false} SplitJoin(parts: seq<string>, c: char)
    requires |parts| >= 1
    requires forall i :: 0 <= i < |parts| ==> c !in parts[i]
    ensures SplitOn(JoinWith(parts, c), c) == parts
    decreases |parts|
  {
    if |parts| == 1 {
      SplitOnFree(parts[0], c);
    } else {
      SplitJoin(parts[1..], c);
      SplitOnSeparated(parts[0], c, JoinWith(parts[1..], c));
      assert [parts[0]] + parts[1..] == parts;
    }
  }
}

=== FILE: weekrest.dfy ===
/** The random rest days of one week of `DayOffDistributor.distribute` (script.js:142-221):
    which days of a week are handed out, and how, for complete weeks (six work days) and
    incomplete ones. The employees' rest-day sets are changed in place; `Math.random` is the
    oracle `draw`, read at the positions `t, t + 1, ...`. */
module WeekRest {
  import opened Text
  import opened Calendar
  import opened Weeks
  import opened Roster
  import opened Assignment

  /** The days every employee rests on: the holidays and the Sundays of the month. */
  function Mandatory(days: seq<Day>, holidays: set<int>): set<int> {
    holidays + DaysWithWeekday(days, {Sunday})
  }

  /** The mandatory days are all holidays, every Sunday of the month, and nothing else. */
  lemma MandatoryDays(days: seq<Day>, holidays: set<int>)
    ensures holidays <= Mandatory(days, holidays)
    ensures forall d :: d in days && d.weekday == Sunday ==> d.day in Mandatory(days, holidays)
    ensures forall x :: x in Mandatory(days, holidays) && x !in holidays ==>
              exists d :: d in days && d.weekday == Sunday && d.day == x
  {
  }

  /** The weekdays some employee has as a fixed rest weekday
      (`this.employees.some(emp => emp.fixedRestDays.has(day.weekday))`). */
  function Blocked(employees: seq<Employee>): set<int> {
    set e, w | e in employees && w in e.fixedRestDays :: w
  }

  /** A weekday is blocked exactly when some employee has it as a fixed rest weekday. */
  lemma BlockedWeekdays(employees: seq<Employee>)
    ensures forall e, w :: e in employees && w in e.fixedRestDays ==> w in Blocked(employees)
    ensures forall w :: w in Blocked(employees) ==> exists e :: e in employees && w in e.fixedRestDays
  {
  }

  /** The employees without fixed rest weekdays (`employeesToRandomize`), in order. */
  function Pool(employees: seq<Employee>): (pool: seq<Employee>)
    ensures forall k :: 0 <= k < |pool| ==> pool[k] in employees && pool[k].fixedRestDays == {}
    ensures forall k :: 0 <= k < |employees| && employees[k].fixedRestDays == {} ==> employees[k] in pool
    ensures Distinct(employees) ==> Distinct(pool)
  {
    if employees == [] then []
    else
      var rest := Pool(employees[1..]);
      assert Distinct(employees) ==> forall k :: 0 <= k < |rest| ==> rest[k] != employees[0];
      if employees[0].fixedRestDays == {} then [employees[0]] + rest else rest
  }

  lemma DistinctTail(ds: seq<Day>)
    requires ds != []
    ensures DistinctDays(ds) ==> DistinctDays(ds[1..]) && forall d :: d in ds[1..] ==> d.day != ds[0].day
  {
    forall d | DistinctDays(ds) && d in ds[1..] ensures d.day != ds[0].day {
      var j :| 0 <= j < |ds[1..]| && ds[1..][j] == d;
      assert ds[j + 1] == d;
    }
  }

  /** The days of a week from Monday to `lastWeekday` that are not holidays and whose weekday
      nobody has as a fixed rest weekday, in order (script.js:146-151 with Friday, 193-198 with
      Saturday). */
  function WeekList(ds: seq<Day>, lastWeekday: int, holidays: set<int>, blocked: set<int>): (list: seq<Day>)
    ensures forall d :: d in list <==> d in ds && 1 <= d.weekday <= lastWeekday && d.day !in holidays && d.weekday !in blocked
    ensures DistinctDays(ds) ==> DistinctDays(list)
  {
    if ds == [] then []
    else
      var rest := WeekList(ds[1..], lastWeekday, holidays, blocked);
      DistinctTail(ds);
      if 1 <= ds[0].weekday <= lastWeekday && ds[0].day !in holidays && ds[0].weekday !in blocked
      then [ds[0]] + rest
      else rest
  }

  /** `weekdays.filter(day => day.weekday !== 6)`. */
  function NonSaturday(list: seq<Day>): (kept: seq<Day>)
    ensures forall d :: d in kept <==> d in list && d.weekday != Saturday
    ensures DistinctDays(list) ==> DistinctDays(kept)
  {
    if list == [] then []
    else
      var rest := NonSaturday(list[1..]);
      DistinctTail(list);
      if list[0].weekday != Saturday then [list[0]] + rest else rest
  }

  /** The days an incomplete week hands out: none for 0 or 5 and more listed days, otherwise
      the listed days that are not Saturdays (script.js:199-219). */
  function IncompleteOptions(list: seq<Day>): set<int> {
    if 1 <= |list| <= 4 then DayNumbers(NonSaturday(list)) else {}
  }

  lemma FreshSub(sub: seq<Day>, list: seq<Day>, rests: seq<set<int>>)
    requires forall d :: d in sub ==> d in list
    requires Fresh(list, rests)
    ensures Fresh(sub, rests)
  {
    forall k, i | 0 <= k < |rests| && 0 <= i < |sub| ensures sub[i].day !in rests[k] {
      assert sub[i] in list;
      var j :| 0 <= j < |list| && list[j] == sub[i];
    }
  }

  /** The pool employees' schedules are as they were. */
  predicate SchedulesKept(pool: seq<Employee>, schedules: seq<seq<ShiftEntry>>)
    reads pool
  {
    |schedules| == |pool| && forall k :: 0 <= k < |pool| ==> pool[k].schedule == schedules[k]
  }

  function Schedules(pool: seq<Employee>): (schedules: seq<seq<ShiftEntry>>)
    reads pool
    ensures SchedulesKept(pool, schedules)
  {
    if pool == [] then [] else Schedules(pool[..|pool| - 1]) + [pool[|pool| - 1].schedule]
  }

  /** A complete week (script.js:146-191): a first pass gives each listed day one employee
      without a day, a second pass tops every listed day up to two resting employees while
      employees without a day remain. Each pool employee gets at most one listed day. The
      counters `restAssignments` (per listed day) and `restDaysAssigned` (per pool employee)
      are local to the week and are modelled as sequences the passes hand on. */
  method CompleteWeek(pool: seq<Employee>, eligible: seq<Day>, draw: nat -> nat, t0: nat) returns (t: nat)
    requires Distinct(pool) && DistinctDays(eligible) && Fresh(eligible, RestSets(pool))
    modifies pool
    ensures SchedulesKept(pool, old(Schedules(pool)))
    ensures WeekOutcome(old(RestSets(pool)), RestSets(pool), DayNumbers(eligible), 2)
    ensures t >= t0
  {
    ghost var initial := RestSets(pool);
    var restAssignments: seq<nat> := seq(|eligible|, _ => 0);
    var restDaysAssigned: seq<bool> := seq(|pool|, _ => false);
    ghost var picked: seq<int> := seq(|pool|, _ => 0);
    ghost var rests := initial;
    StartTracking(eligible, initial);
    t, restAssignments, restDaysAssigned, picked, rests :=
      FirstRestPass(pool, eligible, restAssignments, restDaysAssigned, draw, t0, initial, picked, rests);
    t, restAssignments, restDaysAssigned, picked, rests :=
      SecondRestPass(pool, eligible, restAssignments, restDaysAssigned, draw, t, initial, picked, rests);
    MirrorsRestSets(pool, rests);
    TrackedWeekOutcome(eligible, initial, rests, picked, restAssignments, restDaysAssigned, 2);
  }

  /** The first pass (script.js:155-171): each listed day in turn goes to a random employee
      not yet given a day, so every listed day has one resting employee unless everyone
      already has a day. */
  method FirstRestPass(pool: seq<Employee>, eligible: seq<Day>, counts0: seq<nat>, given0: seq<bool>,
                       draw: nat -> nat, t0: nat, ghost initial: seq<set<int>>, ghost picked0: seq<int>,
                       ghost rests0: seq<set<int>>)
    returns (t: nat, restAssignments: seq<nat>, restDaysAssigned: seq<bool>, ghost picked: seq<int>,
             ghost rests: seq<set<int>>)
    requires Distinct(pool) && DistinctDays(eligible) && Fresh(eligible, initial)
    requires Mirrors(pool, rests0) && Tracked(eligible, initial, rests0, picked0, counts0, given0)
    requires forall i :: 0 <= i < |counts0| ==> counts0[i] == 0
    modifies pool
    ensures Mirrors(pool, rests) && Tracked(eligible, initial, rests, picked, restAssignments, restDaysAssigned)
    ensures forall i :: 0 <= i < |restAssignments| ==> restAssignments[i] <= 1
    ensures forall i :: 0 <= i < |restAssignments| ==> restAssignments[i] == 1 || AllGiven(restDaysAssigned)
    ensures SchedulesKept(pool, old(Schedules(pool)))
    ensures t >= t0
  {
    t, restAssignments, restDaysAssigned, picked, rests := t0, counts0, given0, picked0, rests0;
    ghost var schedules := Schedules(pool);
    for dayIndex := 0 to |eligible|
      invariant Mirrors(pool, rests) && Tracked(eligible, initial, rests, picked, restAssignments, restDaysAssigned)
      invariant forall i :: 0 <= i < |restAssignments| ==> restAssignments[i] <= if i < dayIndex then 1 else 0
      invariant forall i :: 0 <= i < dayIndex ==> restAssignments[i] == 1 || AllGiven(restDaysAssigned)
      invariant SchedulesKept(pool, schedules)
      invariant t >= t0
    {
      var available := Unassigned(restDaysAssigned);
      if |available| > 0 {
        var k := available[draw(t) % |available|];
        assert k in available;
        t := t + 1;
        NotYetGiven(eligible, initial, rests, picked, restAssignments, restDaysAssigned, k);
        var rejected := (dayIndex > 0 && eligible[dayIndex - 1].day in pool[k].restDays) ||
                        (dayIndex < |eligible| - 1 && eligible[dayIndex + 1].day in pool[k].restDays);
        assert !rejected;
        restDaysAssigned, picked, rests :=
          Assign(pool, eligible, restDaysAssigned, initial, picked, restAssignments, rests, k, dayIndex);
        restAssignments := restAssignments[dayIndex := restAssignments[dayIndex] + 1];
      } else {
        NoneUnassigned(restDaysAssigned);
      }
    }
  }

  /** The second pass (script.js:173-191): every listed day is topped up to two resting
      employees while employees without a day remain. */
  method SecondRestPass(pool: seq<Employee>, eligible: seq<Day>, counts0: seq<nat>, given0: seq<bool>,
                        draw: nat -> nat, t0: nat, ghost initial: seq<set<int>>, ghost picked0: seq<int>,
                        ghost rests0: seq<set<int>>)
    returns (t: nat, restAssignments: seq<nat>, restDaysAssigned: seq<bool>, ghost picked: seq<int>,
             ghost rests: seq<set<int>>)
    requires Distinct(pool) && DistinctDays(eligible) && Fresh(eligible, initial)
    requires Mirrors(pool, rests0) && Tracked(eligible, initial, rests0, picked0, counts0, given0)
    requires forall i :: 0 <= i < |counts0| ==> counts0[i] <= 1
    modifies pool
    ensures Mirrors(pool, rests) && Tracked(eligible, initial, rests, picked, restAssignments, restDaysAssigned)
    ensures forall i :: 0 <= i < |restAssignments| ==>
              restAssignments[i] <= 2 && (restAssignments[i] == 2 || AllGiven(restDaysAssigned))
    ensures SchedulesKept(pool, old(Schedules(pool)))
    ensures t >= t0
  {
    t, restAssignments, restDaysAssigned, picked, rests := t0, counts0, given0, picked0, rests0;
    ghost var schedules := Schedules(pool);
    for dayIndex := 0 to |eligible|
      invariant Mirrors(pool, rests) && Tracked(eligible, initial, rests, picked, restAssignments, restDaysAssigned)
      invariant forall i :: 0 <= i < |restAssignments| ==> restAssignments[i] <= if i < dayIndex then 2 else 1
      invariant forall i :: 0 <= i < dayIndex ==> restAssignments[i] == 2 || AllGiven(restDaysAssigned)
      invariant SchedulesKept(pool, schedules)
      invariant t >= t0
    {
      t, restAssignments, restDaysAssigned, picked, rests :=
        FillDay(pool, eligible, restAssignments, restDaysAssigned, draw, t, initial, picked, rests, dayIndex);
    }
  }

  /** The `while` of the second pass for one listed day. It ends because every round gives one
      more employee a day, and its adjacency test never rejects, as in the first pass. */
  method FillDay(pool: seq<Employee>, eligible: seq<Day>, counts0: seq<nat>, given0: seq<bool>,
                 draw: nat -> nat, t0: nat, ghost initial: seq<set<int>>, ghost picked0: seq<int>,
                 ghost rests0: seq<set<int>>, dayIndex: nat)
    returns (t: nat, restAssignments: seq<nat>, restDaysAssigned: seq<bool>, ghost picked: seq<int>,
             ghost rests: seq<set<int>>)
    requires Distinct(pool) && DistinctDays(eligible) && Fresh(eligible, initial) && dayIndex < |eligible|
    requires Mirrors(pool, rests0) && Tracked(eligible, initial, rests0, picked0, counts0, given0)
    requires counts0[dayIndex] <= 2
    modifies pool
    ensures Mirrors(pool, rests) && Tracked(eligible, initial, rests, picked, restAssignments, restDaysAssigned)
    ensures restAssignments[dayIndex] <= 2 && (restAssignments[dayIndex] == 2 || AllGiven(restDaysAssigned))
    ensures forall i :: 0 <= i < |restAssignments| && i != dayIndex ==> restAssignments[i] == counts0[i]
    ensures forall k :: 0 <= k < |restDaysAssigned| && given0[k] ==> restDaysAssigned[k]
    ensures SchedulesKept(pool, old(Schedules(pool)))
    ensures t >= t0
  {
    t, restAssignments, restDaysAssigned, picked, rests := t0, counts0, given0, picked0, rests0;
    ghost var schedules := Schedules(pool);
    while restAssignments[dayIndex] < 2 && |pool| > 0
      invariant Mirrors(pool, rests) && Tracked(eligible, initial, rests, picked, restAssignments, restDaysAssigned)
      invariant restAssignments[dayIndex] <= 2
      invariant forall i :: 0 <= i < |restAssignments| && i != dayIndex ==> restAssignments[i] == counts0[i]
      invariant forall k :: 0 <= k < |restDaysAssigned| && given0[k] ==> restDaysAssigned[k]
      invariant SchedulesKept(pool, schedules)
      invariant t >= t0
      decreases CountFalse(restDaysAssigned)
    {
      var available := AvailableFor(pool, restDaysAssigned, eligible[dayIndex].day);
      if |available| == 0 {
        NoneAvailable(pool, eligible, initial, rests, picked, restAssignments, restDaysAssigned, dayIndex);
        break;
      }
      var k := available[draw(t) % |available|];
      assert k in available;
      t := t + 1;
      NotYetGiven(eligible, initial, rests, picked, restAssignments, restDaysAssigned, k);
      var rejected := (dayIndex > 0 && eligible[dayIndex - 1].day in pool[k].restDays) ||
                      (dayIndex < |eligible| - 1 && eligible[dayIndex + 1].day in pool[k].restDays);
      assert !rejected;
      CountFalseSet(restDaysAssigned, k);
      restDaysAssigned, picked, rests :=
        Assign(pool, eligible, restDaysAssigned, initial, picked, restAssignments, rests, k, dayIndex);
      restAssignments := restAssignments[dayIndex := restAssignments[dayIndex] + 1];
    }
  }

  /** `emp.restDays.add(day)`. */
  method GiveDay(pool: seq<Employee>, k: nat, day: int, ghost rests: seq<set<int>>)
    requires k < |pool| && Distinct(pool) && Mirrors(pool, rests)
    modifies pool[k]
    ensures Mirrors(pool, rests[k := rests[k] + {day}])
    ensures pool[k].schedule == old(pool[k].schedule)
  {
    pool[k].restDays := pool[k].restDays + {day};
  }

  /** `emp.restDays.add(day); restDaysAssigned[idx] = true` for the `i`-th listed day: the
      tracked state moves on with one more employee resting on that day (the caller bumps the
      day's counter where the source keeps one). */
  method Assign(pool: seq<Employee>, eligible: seq<Day>, given0: seq<bool>, ghost initial: seq<set<int>>,
                ghost picked0: seq<int>, ghost counts: seq<nat>, ghost rests0: seq<set<int>>, k: nat, i: nat)
    returns (given: seq<bool>, ghost picked: seq<int>, ghost rests: seq<set<int>>)
    requires Distinct(pool) && DistinctDays(eligible) && Fresh(eligible, initial)
    requires Mirrors(pool, rests0) && Tracked(eligible, initial, rests0, picked0, counts, given0)
    requires k < |given0| && !given0[k] && i < |eligible|
    modifies pool[k]
    ensures Mirrors(pool, rests) && Tracked(eligible, initial, rests, picked, counts[i := counts[i] + 1], given)
    ensures given == given0[k := true]
    ensures pool[k].schedule == old(pool[k].schedule)
  {
    AssignStep(eligible, initial, rests0, picked0, counts, given0, k, i);
    GiveDay(pool, k, eligible[i].day, rests0);
    given, picked, rests := given0[k := true], picked0[k := eligible[i].day], rests0[k := rests0[k] + {eligible[i].day}];
  }

  /** `Math.floor(Math.random() * n)` for the single-day case as written: with no employee to
      choose from it still yields index 0. */
  function SingleDayPickAsWritten(poolSize: nat, r: nat): (index: nat)
    ensures poolSize > 0 ==> index < poolSize
  {
    if poolSize == 0 then 0 else r % poolSize
  }

  /** The single-day pick with the empty pool handled: nobody is chosen. */
  function SingleDayPick(poolSize: nat, r: nat): (index: Option<nat>)
    ensures index.Some? <==> poolSize > 0
    ensures index.Some? ==> index.value < poolSize && index.value == SingleDayPickAsWritten(poolSize, r)
  {
    if poolSize == 0 then None else Some(r % poolSize)
  }

  /** In the last week of April 2024 (Monday 29, Tuesday 30) with every employee resting on
      Mondays by fixed choice, the week's list holds only Tuesday 30 and nobody is left to
      randomise: the index picked as written is 0, which names no employee of the empty list,
      so `employeesToRandomize[0].restDays` fails; the corrected pick chooses nobody. */
  lemma EmptyPoolCrash(r: nat)
    ensures var list := WeekList([Day(29, 1), Day(30, 2)], Saturday, {}, {Monday});
            |list| == 1 && list[0].weekday != Saturday &&
            SingleDayPickAsWritten(0, r) == 0 && SingleDayPick(0, r).None?
  {
    assert [Day(29, 1), Day(30, 2)][1..] == [Day(30, 2)];
    assert [Day(30, 2)][1..] == [];
    assert WeekList([], Saturday, {}, {Monday}) == [];
    assert WeekList([Day(30, 2)], Saturday, {}, {Monday}) == [Day(30, 2)];
  }

  /** An incomplete week (script.js:193-219): a single listed day that is not a Saturday goes to
      one pool employee, and with 2 to 4 listed days each non-Saturday goes to a different pool
      employee while one without a day remains; otherwise nothing happens. */
  method IncompleteWeek(pool: seq<Employee>, list: seq<Day>, draw: nat -> nat, t0: nat) returns (t: nat)
    requires Distinct(pool) && DistinctDays(list) && Fresh(list, RestSets(pool))
    modifies pool
    ensures SchedulesKept(pool, old(Schedules(pool)))
    ensures WeekOutcome(old(RestSets(pool)), RestSets(pool), IncompleteOptions(list), 1)
    ensures t >= t0
  {
    t := t0;
    if |list| == 1 || (2 <= |list| <= 4) {
      var restDays := NonSaturday(list);
      FreshSub(restDays, list, RestSets(pool));
      if |list| == 1 {
        if list[0].weekday == Saturday {
          // everyone works on a lone Saturday
          assert list[1..] == [] && NonSaturday(list[1..]) == [];
          assert WeekOutcome(RestSets(pool), RestSets(pool), {}, 1);
        } else {
          assert list[1..] == [] && NonSaturday(list[1..]) == [];
          assert restDays == list;
          t := SingleDayRest(pool, list[0], draw, t);
        }
      } else {
        t := SpreadRestDays(pool, restDays, draw, t);
      }
    } else {
      assert WeekOutcome(RestSets(pool), RestSets(pool), {}, 1);
    }
  }

  /** script.js:199-206 with the empty pool handled: the day goes to one random pool employee,
      or to nobody when the pool is empty. */
  method SingleDayRest(pool: seq<Employee>, day: Day, draw: nat -> nat, t0: nat) returns (t: nat)
    requires Distinct(pool) && Fresh([day], RestSets(pool))
    modifies pool
    ensures SchedulesKept(pool, old(Schedules(pool)))
    ensures WeekOutcome(old(RestSets(pool)), RestSets(pool), DayNumbers([day]), 1)
    ensures t >= t0
  {
    ghost var initial := RestSets(pool);
    StartTracking([day], initial);
    ghost var rests := initial;
    ghost var given: seq<bool> := seq(|pool|, _ => false);
    ghost var picked: seq<int> := seq(|pool|, _ => 0);
    ghost var counts: seq<nat> := [0];
    match SingleDayPick(|pool|, draw(t0)) {
      case None =>
      case Some(k) =>
        AssignStep([day], initial, rests, picked, counts, given, k, 0);
        GiveDay(pool, k, day.day, rests);
        picked, counts, given, rests := picked[k := day.day], [1], given[k := true], rests[k := rests[k] + {day.day}];
    }
    t := t0 + 1;
    MirrorsRestSets(pool, rests);
    TrackedWeekOutcome([day], initial, rests, picked, counts, given, 1);
  }

  /** The progress of the later rest-day loop after its first `i` days: each of them was
      given to at most one employee, and to exactly one unless everybody already had a day;
      the days still to come were given to nobody. */
  ghost predicate SpreadSoFar(counts: seq<nat>, given: seq<bool>, i: nat) {
    forall j :: 0 <= j < |counts| ==>
      counts[j] <= (if j < i then 1 else 0) && (j < i ==> counts[j] == 1 || AllGiven(given))
  }

  /** Giving day `i` to employee `k`, who had none, advances the progress by one day. */
  lemma SpreadGiven(counts: seq<nat>, given: seq<bool>, k: nat, i: nat)
    requires SpreadSoFar(counts, given, i) && i < |counts| && k < |given| && !given[k]
    ensures SpreadSoFar(counts[i := counts[i] + 1], given[k := true], i + 1)
  {
    assert !AllGiven(given);
  }

  /** With everybody already given a day, skipping day `i` advances the progress by one day. */
  lemma SpreadNone(counts: seq<nat>, given: seq<bool>, i: nat)
    requires SpreadSoFar(counts, given, i) && AllGiven(given)
    ensures SpreadSoFar(counts, given, i + 1)
  {
  }

  /** script.js:207-219: each listed day in turn goes to a random pool employee not yet given a
      day, while there is one. `indexOf` finds the employee at the position it was drawn from,
      as pool entries are distinct. */
  method SpreadRestDays(pool: seq<Employee>, restDays: seq<Day>, draw: nat -> nat, t0: nat) returns (t: nat)
    requires Distinct(pool) && DistinctDays(restDays) && Fresh(restDays, RestSets(pool))
    modifies pool
    ensures SchedulesKept(pool, old(Schedules(pool)))
    ensures WeekOutcome(old(RestSets(pool)), RestSets(pool), DayNumbers(restDays), 1)
    ensures t >= t0
  {
    t := t0;
    ghost var initial := RestSets(pool);
    ghost var rests := initial;
    ghost var schedules := Schedules(pool);
    StartTracking(restDays, initial);
    var restAssignments: seq<bool> := seq(|pool|, _ => false);
    ghost var picked: seq<int> := seq(|pool|, _ => 0);
    ghost var counts: seq<nat> := seq(|restDays|, _ => 0);
    for i := 0 to |restDays|
      invariant Mirrors(pool, rests) && Tracked(restDays, initial, rests, picked, counts, restAssignments)
      invariant |counts| == |restDays| && SpreadSoFar(counts, restAssignments, i)
      invariant SchedulesKept(pool, schedules)
      invariant t >= t0
    {
      var available := Unassigned(restAssignments);
      if |available| > 0 {
        var k := available[draw(t) % |available|];
        assert k in available;
        t := t + 1;
        ghost var before := restAssignments;
        restAssignments, picked, rests := Assign(pool, restDays, restAssignments, initial, picked, counts, rests, k, i);
        SpreadGiven(counts, before, k, i);
        counts := counts[i := counts[i] + 1];
      } else {
        NoneUnassigned(restAssignments);
        SpreadNone(counts, restAssignments, i);
      }
    }
    MirrorsRestSets(pool, rests);
    TrackedWeekOutcome(restDays, initial, rests, picked, counts, restAssignments, 1);
  }
}

=== FILE: weeks.dfy ===
/** `WeekAnalyzer.getWeeks` (script.js:85-108): the month is cut into weeks at every Monday and
    each week is classified by its number of work days. */
module Weeks {
  import opened Calendar

  /** `{ days, isComplete, workDays }`. */
  datatype Week = Week(days: seq<Day>, isComplete: bool, workDays: nat)

  /** The number of days that are neither a holiday nor a Sunday. */
  function WorkDayCount(days: seq<Day>, holidays: set<int>): (n: nat)
    ensures n <= |days|
  {
    if days == [] then 0
    else WorkDayCount(days[..|days| - 1], holidays) + (if IsWorkDay(days[|days| - 1], holidays) then 1 else 0)
  }

  predicate IsWorkDay(d: Day, holidays: set<int>) {
    d.day !in holidays && d.weekday != Sunday
  }

  /** The day groups, concatenated. */
  function Concat(groups: seq<seq<Day>>): seq<Day> {
    if groups == [] then [] else Concat(groups[..|groups| - 1]) + groups[|groups| - 1]
  }

  /** The days of all weeks, in order. */
  function Flatten(weeks: seq<Week>): seq<Day> {
    if weeks == [] then [] else Flatten(weeks[..|weeks| - 1]) + weeks[|weeks| - 1].days
  }

  /** No week is empty; only the first day of a week may be a Monday, and every week but the
      first starts on one. */
  predicate SplitAtMondays(weeks: seq<Week>) {
    (forall w :: 0 <= w < |weeks| ==> weeks[w].days != []) &&
    (forall w, i :: 0 <= w < |weeks| && 0 < i < |weeks[w].days| ==> weeks[w].days[i].weekday != Monday) &&
    (forall w :: 0 < w < |weeks| ==> weeks[w].days[0].weekday == Monday)
  }

  /** `workDays` counts the days that are neither holidays nor Sundays, and a week is complete
      exactly when that count is 6. */
  predicate Classified(weeks: seq<Week>, holidays: set<int>) {
    forall w :: 0 <= w < |weeks| ==>
      weeks[w].workDays == WorkDayCount(weeks[w].days, holidays) &&
      (weeks[w].isComplete <==> weeks[w].workDays == 6)
  }

  /** What `getWeeks` returns for `days` and `holidays`. */
  predicate IsWeekPartition(weeks: seq<Week>, days: seq<Day>, holidays: set<int>) {
    Flatten(weeks) == days && SplitAtMondays(weeks) && Classified(weeks, holidays)
  }

  /** The day groups of `getWeeks`' first loop: none empty, a Monday only in first place,
      every group but the first starting on a Monday. */
  predicate MondayGroups(groups: seq<seq<Day>>) {
    (forall g :: 0 <= g < |groups| ==> groups[g] != []) &&
    (forall g, j :: 0 <= g < |groups| && 0 < j < |groups[g]| ==> groups[g][j].weekday != Monday) &&
    (forall g :: 0 < g < |groups| ==> groups[g][0].weekday == Monday)
  }

  /** The group being filled: no Monday after its first day, and a Monday first unless it is
      the first group. */
  predicate OpenGroup(groups: seq<seq<Day>>, currentWeek: seq<Day>) {
    (forall j :: 0 < j < |currentWeek| ==> currentWeek[j].weekday != Monday) &&
    (|groups| > 0 && currentWeek != [] ==> currentWeek[0].weekday == Monday)
  }

  lemma CloseGroup(groups: seq<seq<Day>>, currentWeek: seq<Day>)
    requires MondayGroups(groups) && OpenGroup(groups, currentWeek) && currentWeek != []
    ensures MondayGroups(groups + [currentWeek])
  {
  }

  /** The `forEach` of `getWeeks`: a new group starts at every Monday that is not the first day
      of the current group; the last group is kept. */
  method GroupAtMondays(days: seq<Day>) returns (groups: seq<seq<Day>>)
    ensures Concat(groups) == days
    ensures MondayGroups(groups)
    ensures days == [] <==> groups == []
  {
    groups := [];
    var currentWeek: seq<Day> := [];
    for i := 0 to |days|
      invariant Concat(groups) + currentWeek == days[..i]
      invariant i > 0 <==> currentWeek != []
      invariant MondayGroups(groups) && OpenGroup(groups, currentWeek)
    {
      if days[i].weekday == Monday && currentWeek != [] {
        CloseGroup(groups, currentWeek);
        groups := groups + [currentWeek];
        currentWeek := [];
      }
      currentWeek := currentWeek + [days[i]];
      assert days[..i + 1] == days[..i] + [days[i]];
    }
    if currentWeek != [] {
      CloseGroup(groups, currentWeek);
      groups := groups + [currentWeek];
    }
    assert days[..|days|] == days;
  }

  method GetWeeks(days: seq<Day>, holidays: set<int>) returns (weeks: seq<Week>)
    ensures Flatten(weeks) == days
    ensures SplitAtMondays(weeks)
    ensures Classified(weeks, holidays)
    ensures days == [] <==> weeks == []
  {
    var groups := GroupAtMondays(days);
    weeks := [];
    for w := 0 to |groups|
      invariant |weeks| == w
      invariant Flatten(weeks) == Concat(groups[..w])
      invariant forall k :: 0 <= k < w ==> weeks[k].days == groups[k]
      invariant Classified(weeks, holidays)
    {
      var workDays := WorkDayCount(groups[w], holidays);
      weeks := weeks + [Week(groups[w], workDays == 6, workDays)];
      assert groups[..w + 1][..w] == groups[..w];
      assert weeks[..w] == weeks[..|weeks| - 1];
    }
    assert groups[..|groups|] == groups;
  }

  /** The day numbers of a week. */
  function WeekDays(week: Week): set<int> {
    set d | d in week.days :: d.day
  }

  lemma {:induction false} FlattenAppend(weeks: seq<Week>, extra: seq<Week>)
    ensures Flatten(weeks + extra) == Flatten(weeks) + Flatten(extra)
    decreases |extra|
  {
    if extra == [] {
      assert weeks + extra == weeks;
    } else {
      var n := |extra|;
      assert (weeks + extra)[..|weeks + extra| - 1] == weeks + extra[..n - 1];
      FlattenAppend(weeks, extra[..n - 1]);
    }
  }

  lemma DistinctSplit(a: seq<Day>, b: seq<Day>)
    requires DistinctDays(a + b)
    ensures DistinctDays(a) && DistinctDays(b)
    ensures forall x, y :: x in a && y in b ==> x.day != y.day
  {
    forall x, y | x in a && y in b ensures x.day != y.day {
      var i :| 0 <= i < |a| && a[i] == x;
      var j :| 0 <= j < |b| && b[j] == y;
      assert (a + b)[i] == x && (a + b)[|a| + j] == y;
    }
    forall i, j | 0 <= i < j < |a| ensures a[i].day != a[j].day {
      assert (a + b)[i] == a[i] && (a + b)[j] == a[j];
    }
    forall i, j | 0 <= i < j < |b| ensures b[i].day != b[j].day {
      assert (a + b)[|a| + i] == b[i] && (a + b)[|a| + j] == b[j];
    }
  }

  /** The weeks of a month with distinct day numbers share no day: a day belongs to one week. */
  lemma {:induction false} WeeksDisjoint(weeks: seq<Week>)
    requires DistinctDays(Flatten(weeks))
    ensures forall j, w :: 0 <= j < |weeks| && 0 <= w < |weeks| && j != w ==> WeekDays(weeks[j]) !! WeekDays(weeks[w])
    decreases |weeks|
  {
    if weeks != [] {
      var n := |weeks|;
      var init := weeks[..n - 1];
      DistinctSplit(Flatten(init), weeks[n - 1].days);
      WeeksDisjoint(init);
      forall j | 0 <= j < n - 1 ensures WeekDays(weeks[j]) !! WeekDays(weeks[n - 1]) {
        WeekInFlatten(init, j);
      }
    }
  }

  lemma {:induction false} WeekInFlatten(weeks: seq<Week>, w: nat)
    requires w < |weeks|
    ensures forall d :: d in weeks[w].days ==> d in Flatten(weeks)
    decreases |weeks|
  {
    var n := |weeks|;
    if w < n - 1 {
      WeekInFlatten(weeks[..n - 1], w);
    }
  }

  /** The days of one week of a month with distinct day numbers are distinct. */
  lemma {:induction false} WeekDistinct(weeks: seq<Week>, w: nat)
    requires DistinctDays(Flatten(weeks)) && w < |weeks|
    ensures DistinctDays(weeks[w].days)
    decreases |weeks|
  {
    var n := |weeks|;
    DistinctSplit(Flatten(weeks[..n - 1]), weeks[n - 1].days);
    if w < n - 1 {
      WeekDistinct(weeks[..n - 1], w);
    }
  }

  /** Every day of the month lies in some week. */
  lemma {:induction false} DayInSomeWeek(weeks: seq<Week>, d: Day)
    requires d in Flatten(weeks)
    ensures exists w :: 0 <= w < |weeks| && d in weeks[w].days
    decreases |weeks|
  {
    var n := |weeks|;
    if d !in weeks[n - 1].days {
      DayInSomeWeek(weeks[..n - 1], d);
      var w :| 0 <= w < n - 1 && d in weeks[..n - 1][w].days;
    }
  }
}
